=== FILE: README.md ===
# Group-sync team reconciliation, modelled in Dafny

The group-sync job copies the team structure of a Backstage catalog into
DevLake's team table. It reads DevLake's teams as CSV rows of strings
(`Id, Name, Alias, ParentId, SortingIndex`). It reads the Backstage `group`
entities, each a name plus `childOf` / `parentOf` relation edges to other
groups by name. It merges the entities into the table and uploads the result.

This project models the merge itself, which is the only decision logic in the job:

- **Id scan** (`largestTeamId`, and the package copy `devlake.LargestTeamId`):
  the largest column-0 value that `strconv.Atoi` accepts, starting from 0.
  Modelled by `DevLake.LargestTeamId`. Its contract is the predicate `IsLargestId`.
- **Name matcher** (`devLakeTeamPredicate`, and the package copy
  `devlake.TeamNamePredicate`): `strings.EqualFold` on column 1. Modelled by
  `DevLake.TeamNamePredicate` over `Fold.EqualFold`. `slices.IndexFunc` over the
  matcher is `DevLake.IndexOfTeam`.
- **Append pass** (`appendNewTeams`): for each entity in order, reuse the first
  row whose name matches. Otherwise append `[Itoa(lastId), name, "", "", ""]`
  after `lastId += 1` on a 64-bit `int`. Then apply the entity's edges from that
  row. Modelled by `GroupSync.ProcessTeam` (one iteration), `GroupSync.ProcessTeams`
  (the loop state after the first n entities) and `GroupSync.AppendNewTeams`.
- **Relinking** (`createRelationships`): each edge's target is looked up by name
  in the current table. A `childOf` edge copies the target's id into the
  source's ParentId. A `parentOf` edge copies the source's id into the target's
  ParentId. Unresolved targets and other edge types are skipped. Modelled by
  `GroupSync.EdgeWrite`, `ApplyRelation` and `CreateRelationships`.

The column positions are the constants `DevLake.IdColumn`, `NameColumn` and
`ParentIdColumn` (0, 1 and 3, as in `group-sync.go` lines 26-28). Go's `int` is
taken to be 64 bits wide. `strconv.Atoi`, `strconv.Itoa` and the wrap-around of
`lastId += 1` are written out in module `Strconv`. ASCII case folding is in
module `Fold`. Module `Scenarios` works through concrete runs.

Two behaviours of the code are easy to miss, and the model follows the code:

- **The header row is an ordinary row.** It can be matched by name. A team
  called "name" reuses it, and a `parentOf` edge to it rewrites its ParentId
  cell. Only its unparsable "Id" keeps it out of the id scan. See
  `Scenarios.HeaderMatchesTeamCalledName`.
- **A second run is not always a no-op.** It appends no rows
  (`GroupSync.RerunAppendsNothing`). But suppose a team has a `childOf` edge
  to a team that the catalog lists later and that the first run creates, and
  the later team carries no `parentOf` edge back. Then the edge only resolves
  on the second run, so the second run still changes a ParentId
  (`Scenarios.RerunMayRelink`). When the later team does carry the mirror
  `parentOf` edge, that edge already links the two on the first run, and the
  second run changes nothing (`Scenarios.MirrorEdgeLinksInFirstPass`).

## Model

| member | source | states |
|---|---|---|
| Strconv.Atoi | devlake-go/group-sync.go:78 | an accepted string is an optional sign followed by digits only; conversely digits alone, or `+`/`-` then digits, are accepted exactly when their signed decimal value fits 64 bits (leading zeros allowed, so "007" is 7 and "-0" is 0), and that value is the result |
| Strconv.Itoa | devlake-go/group-sync.go:96 | the spelling starts with `-` exactly for negative values; the rest is decimal digits denoting the magnitude, with no leading zero |
| Strconv.Inc64 | devlake-go/group-sync.go:95 | `lastId += 1` on a 64-bit int: one more below the maximum, the minimum after the maximum, always within 64 bits |
| Strconv.AtoiItoa | devlake-go/group-sync.go:96 | an id written with `Itoa` parses back with `Atoi` to the same 64-bit value |
| Strconv.ItoaInjective | devlake-go/group-sync.go:96 | two different 64-bit ids never get the same spelling |
| Fold.EqualFold | devlake-go/group-sync.go:71 | two names match exactly when they have the same length and every pair of runes at the same position is equal or an ASCII capital and its lower-case partner |
| Fold.EqualFoldIsLowerEquality | devlake-go/group-sync.go:69-73 | the rune-by-rune fold comparison holds exactly when both strings are equal after lowering every ASCII capital |
| Fold.EqualFoldSymmetric | devlake-go/pkg/devlake/utils.go:15 | swapping the two names does not change whether they match |
| DevLake.TeamNamePredicate | devlake-go/pkg/devlake/utils.go:13-17 | a row matches a team name exactly when its Name column, lowered, equals the lowered name; no other column is consulted |
| DevLake.BlueJaysMatchesLowercase | devlake-go/pkg/devlake/utils.go:13-17 | "Blue Jays" matches a row named "blue jays" |
| DevLake.IndexOfTeam | devlake-go/group-sync.go:90 | the result is the first matching row: it matches, no earlier row does, and none means no row matches |
| DevLake.IndexOfTeamStable | devlake-go/group-sync.go:107 | a lookup that found a row finds the same row in any table that only grows and rewrites ParentId cells; with no new rows every lookup is unchanged |
| DevLake.LargestTeamId | devlake-go/pkg/devlake/utils.go:19-28 | the result is at least 0 and at least every parsable id, and is either 0 or the parsed id of some row |
| DevLake.LargestTeamIdInInt64 | devlake-go/group-sync.go:75-84 | the scan's result lies between 0 and the largest 64-bit int |
| DevLake.LargestTeamIdOrderIndependent | devlake-go/pkg/devlake/utils.go:21-26 | any permutation of the rows gives the same largest id |
| DevLake.LargestTeamIdSkipsUnparsable | devlake-go/group-sync.go:78-79 | inserting a row whose Id does not parse, anywhere, leaves the largest id unchanged |
| GroupSync.EdgeWrite | devlake-go/group-sync.go:107-116 | an edge writes iff its target resolves and its type is `childOf` or `parentOf`; `childOf` puts the target's id in the source row, `parentOf` puts the source's id in the target row |
| GroupSync.SetParentId | devlake-go/group-sync.go:113 | the chosen row's ParentId becomes the written id and every other row is unchanged |
| GroupSync.ApplyRelation | devlake-go/group-sync.go:107-116 | an edge that writes nothing leaves the table equal; otherwise only the written row's ParentId changes, to the written id |
| GroupSync.CreateRelationships | devlake-go/group-sync.go:105-118 | applying an entity's edges keeps the row count and every row except for ParentId cells |
| GroupSync.EdgeWriteStable | devlake-go/group-sync.go:107 | an edge resolves to the same write against any table reached by earlier edges |
| GroupSync.CreateRelationshipsLastWriteWins | devlake-go/group-sync.go:106-116 | each row's final ParentId is the one written by the last edge aimed at it, or its old value when no edge aims at it |
| GroupSync.CreateRelationshipsTouchesOnlyEdgeRows | devlake-go/group-sync.go:112-116 | only the source row and rows that some edge's target name resolves to can change, and only in ParentId |
| GroupSync.NewTeamRow | devlake-go/group-sync.go:96 | the new row has five columns: the id in `Itoa`'s canonical spelling (so `Atoi` reads it back), the entity's name, and empty Alias, ParentId and SortingIndex |
| GroupSync.AppendRow | devlake-go/group-sync.go:96 | appending keeps every old row unchanged and in place, puts the new row last, and makes it the first match for names no old row matched |
| GroupSync.ProcessTeam | devlake-go/group-sync.go:89-100 | a matched entity adds no row and keeps the counter; an unmatched one appends one row named after it with id `Itoa(lastId + 1)`, wrapping at 64 bits; either way the entity matches afterwards |
| GroupSync.ProcessTeamRelinksMatched | devlake-go/group-sync.go:90-100 | for a matched entity, every row's ParentId afterwards is what the last of its edges aimed at that row wrote, resolved from the matched row against the table the loop has built so far, or the old value |
| GroupSync.ProcessTeamRelinksNew | devlake-go/group-sync.go:94-100 | for an unmatched entity, the edges are applied from the new row against the table that already holds it; every row's ParentId is what the last edge aimed at it wrote; otherwise an old row keeps its ParentId from before the step and the new row's stays empty |
| GroupSync.ProcessTeams | devlake-go/group-sync.go:89-101 | the loop only grows the table, changes old rows in ParentId alone, and adds at most one row per entity |
| GroupSync.AppendNewTeams | devlake-go/group-sync.go:86-103 | the output is the input rows in order, changed at most in ParentId, followed by at most one new row per entity |
| GroupSync.ProcessTeamsIds | devlake-go/group-sync.go:94-96 | without overflow the counter advances once per appended row, and the appended rows carry consecutive ids after the starting value |
| GroupSync.AppendNewTeamsIds | devlake-go/group-sync.go:87-96 | without overflow the k-th appended row is spelled `Itoa(largest + 1 + k)` |
| GroupSync.AllocatedIdsConsecutive | devlake-go/group-sync.go:95-96 | without overflow the appended ids parse to `largest + 1`, `largest + 2`, ... in order |
| GroupSync.AllocatedIdsAboveExisting | devlake-go/group-sync.go:87-96 | without overflow every appended id is greater than every parsable input id and differs from every input Id cell |
| GroupSync.AllocatedIdsDistinct | devlake-go/group-sync.go:95-96 | without overflow no two appended rows share an Id cell |
| GroupSync.ProcessTeamsBlank | devlake-go/group-sync.go:96 | the rows the loop appends keep five columns with Alias and SortingIndex empty through all later relinking |
| GroupSync.AppendedRowsBlank | devlake-go/group-sync.go:96 | every row `appendNewTeams` appends has five columns, Alias and SortingIndex empty |
| GroupSync.ProcessTeamsNamesFromEntities | devlake-go/group-sync.go:96 | every row the loop appends is named after one of the entities |
| GroupSync.ProcessTeamsAppendsOnlyUnmatched | devlake-go/group-sync.go:90-97 | every row the loop appends has a name that no earlier row matches |
| GroupSync.ProcessTeamsAllMatch | devlake-go/group-sync.go:90-97 | after the loop every entity's name matches some row |
| GroupSync.EarlierEntitiesResolve | devlake-go/group-sync.go:89-100 | when an entity's edges are applied, the name of every entity before it already matches a row, in the input or appended earlier in the same pass |
| GroupSync.ProcessTeamsNoNewRows | devlake-go/group-sync.go:90-93 | when every entity already matches a row, the loop appends nothing |
| GroupSync.AppendedOnlyWhenUnmatched | devlake-go/group-sync.go:90-97 | each appended row is named after an entity and its name matches no row before it, case-insensitively |
| GroupSync.EveryEntityMatchesAfterAppend | devlake-go/group-sync.go:90-97 | after `appendNewTeams` every entity's name matches a row |
| GroupSync.MatchedEntitiesAddNoRows | devlake-go/group-sync.go:90-93 | entities that all match existing rows add no row |
| GroupSync.RerunAppendsNothing | devlake-go/group-sync.go:86-103 | running again on its own output with the same entities adds no row and changes only ParentId cells |
| Scenarios.HeaderMatchesTeamCalledName | devlake-go/group-sync.go:90 | the header row matches a team called "name", so that team gets no row of its own |
| Scenarios.FirstPassOverChildFirst | devlake-go/group-sync.go:86-103 | with only a header, "A" (childOf "B") then "B" get ids 1 and 2, and "A" gets no parent |
| Scenarios.SecondPassOverChildFirst | devlake-go/group-sync.go:105-118 | rerun on that output, "A"'s edge now resolves and "A" gets parent "2" |
| Scenarios.NewChildGetsParent | devlake-go/group-sync.go:94-113 | a new "Maple Leafs" that is a child of the known "Friendly Confines" (id 1) is appended as `["2", "Maple Leafs", "", "1", ""]`, and row 0 is unchanged |
| Scenarios.NewParentAdoptsChild | devlake-go/group-sync.go:94-115 | a new "Maple Leafs" that is a parent of "Friendly Confines" is appended with no parent, and "Friendly Confines" gets ParentId "2" |
| Scenarios.ParentFirstLinksInOnePass | devlake-go/group-sync.go:86-113 | with "B" listed before its child "A", one pass over a header-only table links "A" to the row for "B" appended earlier in that pass |
| Scenarios.RerunMayRelink | devlake-go/group-sync.go:86-103 | running twice can differ from running once, when a later-listed parent carries no `parentOf` edge back |
| Scenarios.MirrorEdgeLinksInFirstPass | devlake-go/group-sync.go:100-115 | with "B" listed after its child "A" but carrying the mirror `parentOf A` edge, the first run on a header-only table already gives "A" parent "2", and a second run returns the same table |
| Scenarios.CounterWrapsAtMaxInt64 | devlake-go/group-sync.go:95-96 | with the counter at the largest 64-bit int, the next new row gets the most negative id |
| Scenarios.EndToEndScenario | devlake-go/group-sync.go:86-103 | for a DevLake table of three teams, "Maple Leafs" keeps parent "2" and only `["4", "Raptors", "", "", ""]` is appended |

## Left out

- The I/O around the merge is not modelled: the Backstage catalog client,
  the HTTP download and CSV decoding of the teams table, the CSV encoding and
  multipart upload, the environment lookups, the replace mode that starts from
  a bare header, and `main` (`group-sync.go` lines 19-24, 30-67 and 120-168,
  and `teamsApiUrlFromEnv` in `utils.go`). The column constants at lines
  26-28 are modelled. The
  catalog's output and the decoded table are the model's inputs, and the merged
  table is its output.
- The catalog query asks for the groups sorted by name, descending. The model
  takes the entities in whatever order it is given, so that order is an input.
- The `log.Printf` for an already known team (line 93) is output only and is not modelled.
- An edge's target is modelled by its name alone. The kind and namespace of Backstage's entity reference are never read by the code.
- Go shares the inner row slices between the caller's table and the returned
  table, and `createRelationships` writes into them in place. The model returns
  a new table instead. The job only uses the returned table, so this is
  equivalent for it.
- The constants `TeamIdColumn` and `TeamNameColumn` used by `utils.go` are
  defined in a file that is not part of this model. They are taken to be 0 and
  1, like the constants of `group-sync.go`.
- Fold.EqualFold: folds only ASCII letters. Go's `strings.EqualFold` also applies Unicode simple folding to other runes, and it decodes UTF-8 while Dafny strings are sequences of characters.
- DevLake.TeamNamePredicate: requires the row to reach the Name column. Go panics with an index error on a shorter row; the panic is not modelled.
- DevLake.IndexOfTeam: requires every row to reach the Name column. `slices.IndexFunc` stops at the first match, so Go only panics when a short row comes before it; tables with a short row after the first match run in Go but are outside the model.
- DevLake.LargestTeamId: requires every row to reach the Id column; Go panics on an empty row.
- GroupSync.AppendNewTeams: requires every row to reach the ParentId column (`WellFormed`). Go only panics on a shorter row when that row is read or written, so some tables with short rows run in Go but are outside the model.
- GroupSync.CreateRelationships: requires `WellFormed`, as `AppendNewTeams` does.
- GroupSync.AppendNewTeamsIds: holds only while `largest + |entities|` fits a 64-bit int. Beyond that `lastId` wraps, which `ProcessTeam` models and `Scenarios.CounterWrapsAtMaxInt64` shows.
- GroupSync.AllocatedIdsConsecutive: holds only without 64-bit overflow, as above.
- GroupSync.AllocatedIdsAboveExisting: holds only without 64-bit overflow, as above.
- GroupSync.AllocatedIdsDistinct: holds only without 64-bit overflow, as above.
- GroupSync.ProcessTeamsIds: holds only without 64-bit overflow, as above.
- A Go `int` narrower than 64 bits (on a 32-bit target) is not modelled.

=== FILE: devlake.dfy ===
/** DevLake's flat team table as the reconciliation engine sees
    it: rows of strings addressed by fixed column positions, the case-insensitive
    name matcher, the first-match row lookup built on it, and the largest-id scan. */
module DevLake {
  import opened Wrappers
  import Strconv
  import Fold

  const IdColumn: nat := 0
  const NameColumn: nat := 1
  const ParentIdColumn: nat := 3
  /** The Alias and SortingIndex columns, named after the table's header; the
      job only ever writes them as the empty strings of a new row. */
  const AliasColumn: nat := 2
  const SortingIndexColumn: nat := 4
  /** Column count of the rows the job appends. */
  const NewRowWidth: nat := 5

  type Row = seq<string>
  type Table = seq<Row>

  /** Every row reaches the ParentId column, so reads of Id and Name and writes
      of ParentId stay in range. */
  predicate WellFormed(rows: Table) {
    forall i :: 0 <= i < |rows| ==> |rows[i]| > ParentIdColumn
  }

  predicate HasIds(rows: Table) {
    forall i :: 0 <= i < |rows| ==> |rows[i]| > IdColumn
  }

  predicate HasNames(rows: Table) {
    forall i :: 0 <= i < |rows| ==> |rows[i]| > NameColumn
  }

  /** `after` is `before` with at most its ParentId column rewritten. */
  predicate SameButParent(before: Row, after: Row) {
    && |before| > ParentIdColumn
    && |after| == |before|
    && after == before[ParentIdColumn := after[ParentIdColumn]]
  }

  /** `after` keeps every row of `before`, in place and in order, changing at most
      their ParentId columns; it may have further rows at the end. */
  predicate GrowsFrom(before: Table, after: Table) {
    && |before| <= |after|
    && forall i :: 0 <= i < |before| ==> SameButParent(before[i], after[i])
  }

  lemma {:induction false} GrowsFromTransitive(a: Table, b: Table, c: Table)
    requires GrowsFrom(a, b) && GrowsFrom(b, c)
    ensures GrowsFrom(a, c)
  {
    forall i | 0 <= i < |a|
      ensures SameButParent(a[i], c[i])
    {
      assert SameButParent(a[i], b[i]) && SameButParent(b[i], c[i]);
      assert c[i] == a[i][ParentIdColumn := c[i][ParentIdColumn]];
    }
  }

  /** `TeamNamePredicate(teamName)(row)`: the row's Name column equals
      `teamName` up to ASCII case. Only column 1 of the row is read. */
  predicate TeamNamePredicate(teamName: string, row: Row)
    requires |row| > NameColumn
    ensures TeamNamePredicate(teamName, row) <==>
              Fold.LowerAll(row[NameColumn]) == Fold.LowerAll(teamName)
  {
    Fold.EqualFoldIsLowerEquality(row[NameColumn], teamName);
    Fold.EqualFold(row[NameColumn], teamName)
  }

  /** `slices.IndexFunc(rows, TeamNamePredicate(teamName))`: the index of the
      first row whose name matches, or `None` when no row matches. */
  function IndexOfTeam(rows: Table, teamName: string): (r: Option<nat>)
    requires HasNames(rows)
    ensures r.Some? ==> r.value < |rows| && TeamNamePredicate(teamName, rows[r.value])
    ensures r.Some? ==> forall j :: 0 <= j < r.value ==> !TeamNamePredicate(teamName, rows[j])
    ensures r.None? ==> forall j :: 0 <= j < |rows| ==> !TeamNamePredicate(teamName, rows[j])
    decreases |rows|
  {
    if |rows| == 0 then None
    else if TeamNamePredicate(teamName, rows[0]) then Some(0)
    else match IndexOfTeam(rows[1..], teamName)
      case None => None
      case Some(i) => Some(i + 1)
  }

  /** Rows that agree on their Name column match the same team names. */
  predicate SameNames(before: Table, after: Table)
    requires HasNames(before) && HasNames(after)
  {
    && |before| <= |after|
    && forall j :: 0 <= j < |before| ==> after[j][NameColumn] == before[j][NameColumn]
  }

  lemma {:induction false} GrowsFromKeepsNames(before: Table, after: Table)
    requires WellFormed(before) && WellFormed(after) && GrowsFrom(before, after)
    ensures SameNames(before, after)
  {
    forall j | 0 <= j < |before|
      ensures after[j][NameColumn] == before[j][NameColumn]
    {
      assert SameButParent(before[j], after[j]);
    }
  }

  /** A lookup that succeeded keeps its answer once the table only grows and
      keeps every Name column; with no new rows every answer is kept. */
  lemma {:induction false} IndexOfTeamStableNames(before: Table, after: Table, teamName: string)
    requires HasNames(before) && HasNames(after) && SameNames(before, after)
    ensures IndexOfTeam(before, teamName).Some? ==>
              IndexOfTeam(after, teamName) == IndexOfTeam(before, teamName)
    ensures |after| == |before| ==> IndexOfTeam(after, teamName) == IndexOfTeam(before, teamName)
  {
    var b := IndexOfTeam(before, teamName);
    var a := IndexOfTeam(after, teamName);
    if b.Some? {
      assert TeamNamePredicate(teamName, after[b.value]);
      assert forall k :: 0 <= k < b.value ==> !TeamNamePredicate(teamName, after[k]);
    } else if |after| == |before| {
      assert forall k :: 0 <= k < |after| ==> !TeamNamePredicate(teamName, after[k]);
    }
  }

  /** The same, for a table that only grows and rewrites ParentId columns. */
  lemma {:induction false} IndexOfTeamStable(before: Table, after: Table, teamName: string)
    requires WellFormed(before) && WellFormed(after) && GrowsFrom(before, after)
    ensures IndexOfTeam(before, teamName).Some? ==>
              IndexOfTeam(after, teamName) == IndexOfTeam(before, teamName)
    ensures |after| == |before| ==> IndexOfTeam(after, teamName) == IndexOfTeam(before, teamName)
  {
    GrowsFromKeepsNames(before, after);
    IndexOfTeamStableNames(before, after, teamName);
  }

  /** `m` is what the id scan must produce: no smaller than 0, no smaller than
      any Id column that parses as an `int`, and either 0 or one of those ids. */
  predicate IsLargestId(rows: Table, m: int)
    requires HasIds(rows)
  {
    && m >= 0
    && (forall i {:trigger Strconv.Atoi(rows[i][IdColumn])} ::
          0 <= i < |rows| && Strconv.Atoi(rows[i][IdColumn]).Some? ==>
          Strconv.Atoi(rows[i][IdColumn]).value <= m)
    && (m == 0 || exists i :: 0 <= i < |rows| && Strconv.Atoi(rows[i][IdColumn]) == Some(m))
  }

  /** `LargestTeamId`: the accumulator starts at 0 and is raised to every Id
      column that parses and exceeds it; unparsable ids (a header's "Id", an
      empty string) are skipped. Written as the accumulator after the first
      `|rows|` rows. */
  function LargestTeamId(rows: Table): (r: int)
    requires HasIds(rows)
    ensures IsLargestId(rows, r)
    decreases |rows|
  {
    if |rows| == 0 then 0
    else
      var prefix := rows[..|rows| - 1];
      var last := rows[|rows| - 1];
      var acc := LargestTeamId(prefix);
      assert forall i :: 0 <= i < |prefix| ==> prefix[i] == rows[i];
      match Strconv.Atoi(last[IdColumn])
      case Some(id) =>
        if acc < id then id else acc
      case None =>
        acc
  }

  /** The largest id is a value Go's 64-bit `int` can hold. */
  lemma {:induction false} LargestTeamIdInInt64(rows: Table)
    requires HasIds(rows)
    ensures 0 <= LargestTeamId(rows) <= Strconv.MaxInt64
  {
    var m := LargestTeamId(rows);
    if m != 0 {
      var i :| 0 <= i < |rows| && Strconv.Atoi(rows[i][IdColumn]) == Some(m);
    }
  }

  /** Only one value fits the description of the largest id. */
  lemma {:induction false} LargestIdUnique(rows: Table, m: int, n: int)
    requires HasIds(rows)
    requires IsLargestId(rows, m) && IsLargestId(rows, n)
    ensures m == n
  {
    if m != 0 {
      var i :| 0 <= i < |rows| && Strconv.Atoi(rows[i][IdColumn]) == Some(m);
    }
    if n != 0 {
      var i :| 0 <= i < |rows| && Strconv.Atoi(rows[i][IdColumn]) == Some(n);
    }
  }

  /** Two tables made of the same rows have the same largest id. */
  lemma {:induction false} IsLargestIdSameRows(rows: Table, other: Table, m: int)
    requires HasIds(rows) && HasIds(other) && IsLargestId(rows, m)
    requires forall j :: 0 <= j < |other| ==> other[j] in rows
    requires forall i :: 0 <= i < |rows| ==> rows[i] in other
    ensures IsLargestId(other, m)
  {
    forall j | 0 <= j < |other| && Strconv.Atoi(other[j][IdColumn]).Some?
      ensures Strconv.Atoi(other[j][IdColumn]).value <= m
    {
      var i :| 0 <= i < |rows| && rows[i] == other[j];
    }
    if m != 0 {
      var i :| 0 <= i < |rows| && Strconv.Atoi(rows[i][IdColumn]) == Some(m);
      var j :| 0 <= j < |other| && other[j] == rows[i];
    }
  }

  /** The id scan does not depend on row order. */
  lemma {:induction false} LargestTeamIdOrderIndependent(rows: Table, shuffled: Table)
    requires HasIds(rows)
    requires multiset(shuffled) == multiset(rows)
    ensures HasIds(shuffled)
    ensures LargestTeamId(shuffled) == LargestTeamId(rows)
  {
    forall j | 0 <= j < |shuffled|
      ensures shuffled[j] in rows
    {
      assert shuffled[j] in multiset(rows);
    }
    forall i | 0 <= i < |rows|
      ensures rows[i] in shuffled
    {
      assert rows[i] in multiset(shuffled);
    }
    IsLargestIdSameRows(rows, shuffled, LargestTeamId(rows));
    LargestIdUnique(shuffled, LargestTeamId(rows), LargestTeamId(shuffled));
  }

  /** A row whose Id column does not parse leaves the scan's result as it was,
      wherever it sits. */
  lemma {:induction false} LargestTeamIdSkipsUnparsable(before: Table, row: Row, after: Table)
    requires HasIds(before) && HasIds(after) && |row| > IdColumn
    requires Strconv.Atoi(row[IdColumn]).None?
    ensures HasIds(before + [row] + after) && HasIds(before + after)
    ensures LargestTeamId(before + [row] + after) == LargestTeamId(before + after)
  {
    var withRow := before + [row] + after;
    var without := before + after;
    assert forall i :: 0 <= i < |before| ==> withRow[i] == without[i];
    assert forall i :: |before| <= i < |without| ==> withRow[i + 1] == without[i];
    var m := LargestTeamId(without);
    assert IsLargestId(withRow, m) by {
      forall i | 0 <= i < |withRow| && Strconv.Atoi(withRow[i][IdColumn]).Some?
        ensures Strconv.Atoi(withRow[i][IdColumn]).value <= m
      {
        if i > |before| {
          assert withRow[i] == without[i - 1];
        }
      }
      if m != 0 {
        var i :| 0 <= i < |without| && Strconv.Atoi(without[i][IdColumn]) == Some(m);
        if i < |before| {
          assert withRow[i] == without[i];
        } else {
          assert withRow[i + 1] == without[i];
        }
      }
    }
    LargestIdUnique(withRow, m, LargestTeamId(withRow));
  }

  /** A Backstage group "Blue Jays" names the DevLake row "blue jays". */
  lemma BlueJaysMatchesLowercase()
    ensures TeamNamePredicate("Blue Jays", ["3", "blue jays", "BJ", "", "2"])
  {
    assert Fold.LowerAll("Blue Jays") == Fold.LowerAll("blue jays");
  }

  /** The row's Id column spells `id` the way `strconv.Itoa` does. */
  predicate HasId(row: Row, id: int) {
    |row| > IdColumn && row[IdColumn] == Strconv.Itoa(id)
  }

  /** Rows `start`, `start + 1`, ... of `rows` carry the ids `first`,
      `first + 1`, ... in that order. */
  predicate NumberedFrom(rows: Table, start: nat, first: int) {
    forall i :: start <= i < |rows| ==> HasId(rows[i], first + (i - start))
  }

  /** Rewriting ParentId columns keeps a numbering. */
  lemma {:induction false} NumberedFromKept(rows: Table, next: Table, start: nat, first: int)
    requires GrowsFrom(rows, next) && |next| == |rows|
    requires NumberedFrom(rows, start, first)
    ensures NumberedFrom(next, start, first)
  {
    forall i | start <= i < |next|
      ensures HasId(next[i], first + (i - start))
    {
      assert SameButParent(rows[i], next[i]);
    }
  }

  /** Appending a row with the next id extends a numbering. */
  lemma {:induction false} NumberedFromExtended(rows: Table, next: Table, start: nat, first: int)
    requires GrowsFrom(rows, next) && |next| == |rows| + 1 && start <= |rows|
    requires NumberedFrom(rows, start, first)
    requires HasId(next[|rows|], first + (|rows| - start))
    ensures NumberedFrom(next, start, first)
  {
    forall i | start <= i < |next|
      ensures HasId(next[i], first + (i - start))
    {
      if i < |rows| {
        assert SameButParent(rows[i], next[i]);
      }
    }
  }

  /** An appended row's id parses back to its number. */
  lemma {:induction false} NewRowIdParses(row: Row, id: int)
    requires Strconv.InInt64(id) && HasId(row, id)
    ensures Strconv.Atoi(row[IdColumn]) == Some(id)
  {
    Strconv.AtoiItoa(id);
  }

  /** Ids numbered from `first` parse back to `first`, `first + 1`, ... */
  lemma {:induction false} NumberedIdsParse(r: Table, start: nat, first: int)
    requires NumberedFrom(r, start, first)
    requires Strconv.MinInt64 <= first && first + (|r| - start) - 1 <= Strconv.MaxInt64
    ensures forall i :: start <= i < |r| ==>
              && |r[i]| > IdColumn
              && Strconv.Atoi(r[i][IdColumn]).Some?
              && Strconv.Atoi(r[i][IdColumn]).value == first + (i - start)
  {
    forall i | start <= i < |r|
      ensures && |r[i]| > IdColumn
              && Strconv.Atoi(r[i][IdColumn]).Some?
              && Strconv.Atoi(r[i][IdColumn]).value == first + (i - start)
    {
      NewRowIdParses(r[i], first + (i - start));
    }
  }

  /** Ids numbered from just above the largest parsable id are above every
      parsable id of `rows` and spelled differently from every Id column of it. */
  lemma {:induction false} NumberedIdsFresh(rows: Table, r: Table, start: nat, largest: int)
    requires HasIds(rows) && IsLargestId(rows, largest)
    requires NumberedFrom(r, start, largest + 1) && largest + (|r| - start) <= Strconv.MaxInt64
    ensures forall i, j :: start <= i < |r| && 0 <= j < |rows| ==>
              && |r[i]| > IdColumn
              && Strconv.Atoi(r[i][IdColumn]).Some?
              && (Strconv.Atoi(rows[j][IdColumn]).Some? ==>
                    Strconv.Atoi(rows[j][IdColumn]).value < Strconv.Atoi(r[i][IdColumn]).value)
              && r[i][IdColumn] != rows[j][IdColumn]
  {
    NumberedIdsParse(r, start, largest + 1);
  }

  /** Ids numbered consecutively are pairwise different. */
  lemma {:induction false} NumberedIdsDistinct(r: Table, start: nat, first: int)
    requires NumberedFrom(r, start, first)
    requires Strconv.MinInt64 <= first && first + (|r| - start) - 1 <= Strconv.MaxInt64
    ensures forall i, j :: start <= i < j < |r| ==> r[i][IdColumn] != r[j][IdColumn]
  {
    NumberedIdsParse(r, start, first);
  }

  /** The row has the five columns of an appended row, Alias and SortingIndex empty. */
  predicate HasBlankExtras(row: Row) {
    |row| == NewRowWidth && row[AliasColumn] == "" && row[SortingIndexColumn] == ""
  }

  /** Rows `start`, `start + 1`, ... of `rows` all have blank extras. */
  predicate BlankFrom(rows: Table, start: nat) {
    forall i :: start <= i < |rows| ==> HasBlankExtras(rows[i])
  }

  lemma {:induction false} BlankFromKept(rows: Table, next: Table, start: nat)
    requires GrowsFrom(rows, next) && |next| == |rows| && BlankFrom(rows, start)
    ensures BlankFrom(next, start)
  {
    forall i | start <= i < |next|
      ensures HasBlankExtras(next[i])
    {
      assert SameButParent(rows[i], next[i]);
      assert next[i][AliasColumn] == rows[i][AliasColumn];
    }
  }

  lemma {:induction false} BlankFromExtended(rows: Table, next: Table, start: nat)
    requires GrowsFrom(rows, next) && |next| == |rows| + 1 && start <= |rows|
    requires BlankFrom(rows, start) && HasBlankExtras(next[|rows|])
    ensures BlankFrom(next, start)
  {
    forall i | start <= i < |next|
      ensures HasBlankExtras(next[i])
    {
      if i < |rows| {
        assert SameButParent(rows[i], next[i]);
        assert next[i][AliasColumn] == rows[i][AliasColumn];
      }
    }
  }
}

=== FILE: fold.dfy ===
/** Go's `strings.EqualFold` on the ASCII range: two strings are equal under
    case folding when they have the same length and agree rune by rune, where an
    upper-case ASCII letter and its lower-case partner count as the same rune. */
module Fold {

  predicate IsUpper(c: char) {
    'A' <= c <= 'Z'
  }

  /** The lower-case partner of an upper-case ASCII letter; every other rune is its own. */
  function ToLower(c: char): (l: char)
    ensures !IsUpper(l)
    ensures IsUpper(c) ==> l as int == c as int + 32
    ensures !IsUpper(c) ==> l == c
  {
    if IsUpper(c) then (c as int + 32) as char else c
  }

  /** A string with every upper-case ASCII letter lowered. */
  function LowerAll(s: string): (r: string)
    ensures |r| == |s|
    ensures forall i :: 0 <= i < |s| ==> r[i] == ToLower(s[i])
  {
    seq(|s|, i requires 0 <= i < |s| => ToLower(s[i]))
  }

  /** One step of `strings.EqualFold`'s loop: equal runes, or, after ordering the
      pair, an upper-case letter and exactly its lower-case partner. */
  predicate RuneFold(a: char, b: char) {
    var lo := if a <= b then a else b;
    var hi := if a <= b then b else a;
    lo == hi || (IsUpper(lo) && hi as int == lo as int + 32)
  }

  /** `strings.EqualFold`, walking both strings from the front: the walk stops
      at the first rune pair that does not fold or when either string ends, and
      succeeds exactly when both ended together with every pair folding. */
  function EqualFold(s: string, t: string): (b: bool)
    ensures b <==> |s| == |t| && forall i :: 0 <= i < |s| ==> RuneFold(s[i], t[i])
    decreases |s|
  {
    if |s| == 0 || |t| == 0 then |s| == |t|
    else
      var rest := EqualFold(s[1..], t[1..]);
      assert forall i :: 1 <= i < |s| && i < |t| ==> s[1..][i - 1] == s[i] && t[1..][i - 1] == t[i];
      RuneFold(s[0], t[0]) && rest
  }

  lemma RuneFoldIsLowerEquality(a: char, b: char)
    ensures RuneFold(a, b) <==> ToLower(a) == ToLower(b)
  {
  }

  /** The rune-by-rune walk agrees with comparing the lowered strings. */
  lemma {:induction false} EqualFoldIsLowerEquality(s: string, t: string)
    ensures EqualFold(s, t) <==> LowerAll(s) == LowerAll(t)
    decreases |s|
  {
    if |s| == 0 || |t| == 0 {
    } else {
      EqualFoldIsLowerEquality(s[1..], t[1..]);
      RuneFoldIsLowerEquality(s[0], t[0]);
      if LowerAll(s) == LowerAll(t) {
        assert LowerAll(s)[0] == LowerAll(t)[0];
        assert LowerAll(s[1..]) == LowerAll(s)[1..];
        assert LowerAll(t[1..]) == LowerAll(t)[1..];
      }
      if EqualFold(s, t) {
        assert LowerAll(s) == [ToLower(s[0])] + LowerAll(s[1..]);
        assert LowerAll(t) == [ToLower(t[0])] + LowerAll(t[1..]);
      }
    }
  }

  /** Case-insensitive equality does not care which side is which. */
  lemma {:induction false} EqualFoldSymmetric(s: string, t: string)
    ensures EqualFold(s, t) == EqualFold(t, s)
  {
    EqualFoldIsLowerEquality(s, t);
    EqualFoldIsLowerEquality(t, s);
  }
}

=== FILE: groupsync.dfy ===
/** The reconciliation pass of the group-sync job: Backstage group entities
    are merged into DevLake's team table. An entity whose
    name matches no row gets a new row with the next id; then every `childOf` /
    `parentOf` edge it carries is turned into a write to a ParentId column. */
module GroupSync {
  import opened Wrappers
  import Strconv
  import opened DevLake

  const ChildOf: string := "childOf"
  const ParentOf: string := "parentOf"

  /** A Backstage relation edge: its type and the *name* of the related entity. */
  datatype Relation = Relation(relType: string, targetName: string)

  /** A Backstage group entity: its name and its relation edges, in order. */
  datatype Entity = Entity(name: string, relations: seq<Relation>)

  /** The write one edge performs: the row whose ParentId is set, and the id put there. */
  datatype ParentWrite = ParentWrite(row: nat, parentId: string)

  /** The write an edge from row `source` performs against `rows`, if any. The
      target is the first row whose name matches the edge's target name; an
      unresolved target or a type other than `childOf` / `parentOf` writes nothing.
      A `childOf` edge gives the source the target's id as parent; a `parentOf`
      edge gives the target the source's id as parent. */
  function EdgeWrite(rel: Relation, rows: Table, source: nat): (w: Option<ParentWrite>)
    requires WellFormed(rows) && source < |rows|
    ensures w.Some? ==> w.value.row < |rows|
    ensures w.Some? <==>
              IndexOfTeam(rows, rel.targetName).Some? && (rel.relType == ChildOf || rel.relType == ParentOf)
    ensures w.Some? && rel.relType == ChildOf ==>
              w.value.row == source
              && w.value.parentId == rows[IndexOfTeam(rows, rel.targetName).value][IdColumn]
    ensures w.Some? && rel.relType == ParentOf ==>
              w.value.row == IndexOfTeam(rows, rel.targetName).value
              && w.value.parentId == rows[source][IdColumn]
  {
    match IndexOfTeam(rows, rel.targetName)
    case None => None
    case Some(target) =>
      if rel.relType == ChildOf then Some(ParentWrite(source, rows[target][IdColumn]))
      else if rel.relType == ParentOf then Some(ParentWrite(target, rows[source][IdColumn]))
      else None
  }

  /** Stores `w.parentId` in the ParentId column of row `w.row`. */
  function SetParentId(rows: Table, w: ParentWrite): (r: Table)
    requires WellFormed(rows) && w.row < |rows|
    ensures |r| == |rows| && WellFormed(r) && GrowsFrom(rows, r)
    ensures r[w.row][ParentIdColumn] == w.parentId
    ensures forall i :: 0 <= i < |rows| && i != w.row ==> r[i] == rows[i]
  {
    rows[w.row := rows[w.row][ParentIdColumn := w.parentId]]
  }

  /** One iteration of `createRelationships`' loop. */
  function ApplyRelation(rel: Relation, rows: Table, source: nat): (r: Table)
    requires WellFormed(rows) && source < |rows|
    ensures |r| == |rows| && WellFormed(r) && GrowsFrom(rows, r)
    ensures EdgeWrite(rel, rows, source).None? ==> r == rows
    ensures EdgeWrite(rel, rows, source).Some? ==>
              var w := EdgeWrite(rel, rows, source).value;
              r[w.row][ParentIdColumn] == w.parentId
              && forall i :: 0 <= i < |rows| && i != w.row ==> r[i] == rows[i]
  {
    match EdgeWrite(rel, rows, source)
    case None => rows
    case Some(w) => SetParentId(rows, w)
  }

  /** `createRelationships`: the table after the first `|rels|` edges of the
      entity at row `source` have been applied in order. Targets are resolved
      against the table as it is at that moment. */
  function CreateRelationships(rels: seq<Relation>, rows: Table, source: nat): (r: Table)
    requires WellFormed(rows) && source < |rows|
    ensures |r| == |rows| && WellFormed(r) && GrowsFrom(rows, r)
    decreases |rels|
  {
    if |rels| == 0 then rows
    else
      var before := CreateRelationships(rels[..|rels| - 1], rows, source);
      GrowsFromTransitive(rows, before, ApplyRelation(rels[|rels| - 1], before, source));
      ApplyRelation(rels[|rels| - 1], before, source)
  }

  /** Ids and names never change while edges are applied, so an edge resolves
      to the same write whichever intermediate table it is resolved against. */
  lemma {:induction false} EdgeWriteStable(rel: Relation, before: Table, after: Table, source: nat)
    requires WellFormed(before) && WellFormed(after) && source < |before|
    requires |after| == |before| && GrowsFrom(before, after)
    ensures EdgeWrite(rel, after, source) == EdgeWrite(rel, before, source)
  {
    IndexOfTeamStable(before, after, rel.targetName);
    assert SameButParent(before[source], after[source]);
    match IndexOfTeam(before, rel.targetName)
    case None =>
    case Some(target) =>
      assert SameButParent(before[target], after[target]);
  }

  /** Reference reading of a run of edges: the id the LAST edge writing row
      `row` puts there, each edge resolved against the table before any edge. */
  function LastParentWrite(rels: seq<Relation>, rows: Table, source: nat, row: nat): Option<string>
    requires WellFormed(rows) && source < |rows|
    decreases |rels|
  {
    if |rels| == 0 then None
    else match EdgeWrite(rels[|rels| - 1], rows, source)
      case Some(w) =>
        if w.row == row then Some(w.parentId)
        else LastParentWrite(rels[..|rels| - 1], rows, source, row)
      case None =>
        LastParentWrite(rels[..|rels| - 1], rows, source, row)
  }

  /** After `createRelationships`, a row's ParentId is the id written by the last
      edge that targets it, or its old value when no edge does. */
  lemma {:induction false} CreateRelationshipsLastWriteWins(rels: seq<Relation>, rows: Table, source: nat, row: nat)
    requires WellFormed(rows) && source < |rows| && row < |rows|
    ensures CreateRelationships(rels, rows, source)[row][ParentIdColumn] ==
              LastParentWrite(rels, rows, source, row).GetOr(rows[row][ParentIdColumn])
    decreases |rels|
  {
    if |rels| > 0 {
      var prefix := rels[..|rels| - 1];
      var before := CreateRelationships(prefix, rows, source);
      CreateRelationshipsLastWriteWins(prefix, rows, source, row);
      EdgeWriteStable(rels[|rels| - 1], rows, before, source);
    }
  }

  /** An edge that the reference reading credits with a write to `row` exists. */
  lemma {:induction false} LastParentWriteHasEdge(rels: seq<Relation>, rows: Table, source: nat, row: nat)
    requires WellFormed(rows) && source < |rows|
    requires LastParentWrite(rels, rows, source, row).Some?
    ensures exists k :: 0 <= k < |rels| && EdgeWrite(rels[k], rows, source).Some?
                        && EdgeWrite(rels[k], rows, source).value.row == row
    decreases |rels|
  {
    var prefix := rels[..|rels| - 1];
    var w := EdgeWrite(rels[|rels| - 1], rows, source);
    if w.Some? && w.value.row == row {
      assert EdgeWrite(rels[|rels| - 1], rows, source).value.row == row;
    } else {
      LastParentWriteHasEdge(prefix, rows, source, row);
      var k :| 0 <= k < |prefix| && EdgeWrite(prefix[k], rows, source).Some?
               && EdgeWrite(prefix[k], rows, source).value.row == row;
      assert prefix[k] == rels[k];
    }
  }

  /** `createRelationships` changes only the source row and rows some edge's
      target name resolves to, and in those only the ParentId column; the row
      count stays the same. */
  lemma {:induction false} CreateRelationshipsTouchesOnlyEdgeRows(rels: seq<Relation>, rows: Table, source: nat, row: nat)
    requires WellFormed(rows) && source < |rows| && row < |rows|
    ensures |CreateRelationships(rels, rows, source)| == |rows|
    ensures SameButParent(rows[row], CreateRelationships(rels, rows, source)[row])
    ensures CreateRelationships(rels, rows, source)[row] != rows[row] ==>
              row == source || exists k :: 0 <= k < |rels| && IndexOfTeam(rows, rels[k].targetName) == Some(row)
  {
    var r := CreateRelationships(rels, rows, source);
    assert SameButParent(rows[row], r[row]);
    if r[row] != rows[row] {
      CreateRelationshipsLastWriteWins(rels, rows, source, row);
      LastParentWriteHasEdge(rels, rows, source, row);
      var k :| 0 <= k < |rels| && EdgeWrite(rels[k], rows, source).Some?
               && EdgeWrite(rels[k], rows, source).value.row == row;
      if row != source {
        assert IndexOfTeam(rows, rels[k].targetName) == Some(row);
      }
    }
  }

  /** The state of `appendNewTeams`' loop: the table and the last id handed out. */
  datatype Progress = Progress(rows: Table, lastId: int)

  /** The row appended for a Backstage team DevLake does not know yet: its
      id spelled by `Itoa`, its name, and every other column empty. */
  function NewTeamRow(id: int, name: string): (row: Row)
    ensures |row| == NewRowWidth && HasBlankExtras(row) && HasId(row, id)
    ensures row[NameColumn] == name && row[ParentIdColumn] == ""
    ensures Strconv.InInt64(id) ==> Strconv.Atoi(row[IdColumn]) == Some(id)
  {
    var row := [Strconv.Itoa(id), name, "", "", ""];
    if Strconv.InInt64(id) then Strconv.AtoiItoa(id); row else row
  }

  /** An appended row after relinking: id `id`, Alias and SortingIndex empty,
      exactly five columns; Name and ParentId are left open. */
  predicate IsNewRow(row: Row, id: int) {
    HasId(row, id) && HasBlankExtras(row)
  }

  /** Relinking a new row changes at most its ParentId, so it stays a new row. */
  lemma {:induction false} NewRowRelinked(id: int, name: string, after: Row)
    requires SameButParent(NewTeamRow(id, name), after)
    ensures IsNewRow(after, id) && after[NameColumn] == name
  {
    assert after[IdColumn] == NewTeamRow(id, name)[IdColumn];
  }

  /** Go's `append(devLakeTeams, row)`. A row that matches a name no earlier
      row matches becomes that name's first match. */
  function AppendRow(rows: Table, row: Row): (r: Table)
    requires WellFormed(rows) && |row| > ParentIdColumn
    ensures |r| == |rows| + 1 && WellFormed(r) && GrowsFrom(rows, r)
    ensures r[|rows|] == row
    ensures forall i :: 0 <= i < |rows| ==> r[i] == rows[i]
    ensures forall name :: IndexOfTeam(rows, name).None? && TeamNamePredicate(name, row) ==>
              IndexOfTeam(r, name) == Some(|rows|)
  {
    var r := rows + [row];
    assert forall i :: 0 <= i < |rows| ==> r[i] == rows[i];
    r
  }

  /** One iteration of `appendNewTeams`' loop: reuse the first row whose name
      matches the entity, or append a row with the next id (Go's `lastId += 1`,
      wrapping like a 64-bit `int`); then apply the entity's edges from that row. */
  function ProcessTeam(e: Entity, p: Progress): (q: Progress)
    requires WellFormed(p.rows) && Strconv.InInt64(p.lastId)
    ensures WellFormed(q.rows) && GrowsFrom(p.rows, q.rows) && Strconv.InInt64(q.lastId)
    ensures IndexOfTeam(p.rows, e.name).Some? ==> |q.rows| == |p.rows| && q.lastId == p.lastId
    ensures IndexOfTeam(p.rows, e.name).None? ==>
              && |q.rows| == |p.rows| + 1
              && q.lastId == Strconv.Inc64(p.lastId)
              && IsNewRow(q.rows[|p.rows|], q.lastId)
              && q.rows[|p.rows|][NameColumn] == e.name
    ensures IndexOfTeam(q.rows, e.name).Some?
  {
    match IndexOfTeam(p.rows, e.name)
    case Some(index) =>
      var r := CreateRelationships(e.relations, p.rows, index);
      IndexOfTeamStable(p.rows, r, e.name);
      Progress(r, p.lastId)
    case None =>
      var id := Strconv.Inc64(p.lastId);
      var grown := AppendRow(p.rows, NewTeamRow(id, e.name));
      var r := CreateRelationships(e.relations, grown, |p.rows|);
      GrowsFromTransitive(p.rows, grown, r);
      IndexOfTeamStable(grown, r, e.name);
      NewRowRelinked(id, e.name, r[|p.rows|]);
      Progress(r, id)
  }

  /** An entity that matches row `index` applies its edges from that row, each
      resolved against the table as the loop has grown it so far: a row's
      ParentId ends up as the last edge aimed at it wrote, or stays as it was. */
  lemma {:induction false} ProcessTeamRelinksMatched(e: Entity, p: Progress, index: nat, row: nat)
    requires WellFormed(p.rows) && Strconv.InInt64(p.lastId)
    requires IndexOfTeam(p.rows, e.name) == Some(index) && row < |p.rows|
    ensures |ProcessTeam(e, p).rows| == |p.rows|
    ensures ProcessTeam(e, p).rows[row][ParentIdColumn] ==
              LastParentWrite(e.relations, p.rows, index, row).GetOr(p.rows[row][ParentIdColumn])
  {
    assert ProcessTeam(e, p).rows == CreateRelationships(e.relations, p.rows, index);
    CreateRelationshipsLastWriteWins(e.relations, p.rows, index, row);
  }

  /** An entity no row matches first gets its new row, then applies its edges
      from that row against the table that already holds it, so a target can
      resolve to any row appended earlier in the pass, or to the new row itself.
      An old row keeps its ParentId unless an edge writes it, and the new row's
      ParentId starts empty. */
  lemma {:induction false} ProcessTeamRelinksNew(e: Entity, p: Progress, row: nat)
    requires WellFormed(p.rows) && Strconv.InInt64(p.lastId)
    requires IndexOfTeam(p.rows, e.name).None? && row <= |p.rows|
    ensures var grown := AppendRow(p.rows, NewTeamRow(Strconv.Inc64(p.lastId), e.name));
            && |ProcessTeam(e, p).rows| == |grown|
            && ProcessTeam(e, p).rows[row][ParentIdColumn] ==
                 LastParentWrite(e.relations, grown, |p.rows|, row).GetOr(grown[row][ParentIdColumn])
    ensures var grown := AppendRow(p.rows, NewTeamRow(Strconv.Inc64(p.lastId), e.name));
            row < |p.rows| ==>
              ProcessTeam(e, p).rows[row][ParentIdColumn] ==
                LastParentWrite(e.relations, grown, |p.rows|, row).GetOr(p.rows[row][ParentIdColumn])
    ensures var grown := AppendRow(p.rows, NewTeamRow(Strconv.Inc64(p.lastId), e.name));
            row == |p.rows| ==>
              ProcessTeam(e, p).rows[row][ParentIdColumn] == LastParentWrite(e.relations, grown, |p.rows|, row).GetOr("")
  {
    var grown := AppendRow(p.rows, NewTeamRow(Strconv.Inc64(p.lastId), e.name));
    assert ProcessTeam(e, p).rows == CreateRelationships(e.relations, grown, |p.rows|);
    CreateRelationshipsLastWriteWins(e.relations, grown, |p.rows|, row);
  }

  /** The loop state after the first `|es|` entities. */
  function ProcessTeams(es: seq<Entity>, p: Progress): (q: Progress)
    requires WellFormed(p.rows) && Strconv.InInt64(p.lastId)
    ensures WellFormed(q.rows) && GrowsFrom(p.rows, q.rows) && Strconv.InInt64(q.lastId)
    ensures |q.rows| <= |p.rows| + |es|
    decreases |es|
  {
    if |es| == 0 then p
    else
      var before := ProcessTeams(es[..|es| - 1], p);
      GrowsFromTransitive(p.rows, before.rows, ProcessTeam(es[|es| - 1], before).rows);
      ProcessTeam(es[|es| - 1], before)
  }

  /** `appendNewTeams`: ids are handed out from the largest parsable id of the
      input table upwards. The result keeps every input row in place, changing
      at most ParentId columns, and adds at most one row per entity. */
  function AppendNewTeams(es: seq<Entity>, rows: Table): (r: Table)
    requires WellFormed(rows)
    ensures WellFormed(r) && GrowsFrom(rows, r)
    ensures |r| <= |rows| + |es|
  {
    LargestTeamIdInInt64(rows);
    ProcessTeams(es, Progress(rows, LargestTeamId(rows))).rows
  }

  /** What the loop promises about ids, from state `start` to state `cur`, while
      the counter stays below the 64-bit limit: it has advanced once per appended
      row, and the appended rows carry `start.lastId + 1`, `start.lastId + 2`, ... */
  predicate IdsAllocated(start: Progress, cur: Progress) {
    && |start.rows| <= |cur.rows|
    && cur.lastId == start.lastId + (|cur.rows| - |start.rows|)
    && NumberedFrom(cur.rows, |start.rows|, start.lastId + 1)
  }

  /** A loop step that reused a row keeps the ids allocated so far. */
  lemma {:induction false} IdsAllocatedReuse(start: Progress, cur: Progress, next: Progress)
    requires IdsAllocated(start, cur)
    requires GrowsFrom(cur.rows, next.rows) && |next.rows| == |cur.rows| && next.lastId == cur.lastId
    ensures IdsAllocated(start, next)
  {
    NumberedFromKept(cur.rows, next.rows, |start.rows|, start.lastId + 1);
  }

  /** A loop step that appended the row with the next id extends the allocation. */
  lemma {:induction false} IdsAllocatedAppend(start: Progress, cur: Progress, next: Progress)
    requires IdsAllocated(start, cur)
    requires GrowsFrom(cur.rows, next.rows) && |next.rows| == |cur.rows| + 1 && next.lastId == cur.lastId + 1
    requires HasId(next.rows[|cur.rows|], next.lastId)
    ensures IdsAllocated(start, next)
  {
    var first := start.lastId + 1;
    assert next.lastId == first + (|cur.rows| - |start.rows|);
    NumberedFromExtended(cur.rows, next.rows, |start.rows|, first);
  }

  /** Starting from `p`, no more increments than entities, so the ids stay exact
      as long as `p.lastId + |es|` fits a 64-bit `int`. */
  lemma {:induction false} ProcessTeamsIds(es: seq<Entity>, p: Progress)
    requires WellFormed(p.rows) && Strconv.InInt64(p.lastId) && p.lastId + |es| <= Strconv.MaxInt64
    ensures IdsAllocated(p, ProcessTeams(es, p))
    decreases |es|
  {
    if |es| > 0 {
      var e := es[|es| - 1];
      var before := ProcessTeams(es[..|es| - 1], p);
      ProcessTeamsIds(es[..|es| - 1], p);
      var q := ProcessTeam(e, before);
      if IndexOfTeam(before.rows, e.name).Some? {
        IdsAllocatedReuse(p, before, q);
      } else {
        IdsAllocatedAppend(p, before, q);
      }
    }
  }

  /** Every row the loop appends keeps five columns with Alias and SortingIndex
      empty: relinking only ever writes ParentId. */
  lemma {:induction false} ProcessTeamsBlank(es: seq<Entity>, p: Progress)
    requires WellFormed(p.rows) && Strconv.InInt64(p.lastId)
    ensures BlankFrom(ProcessTeams(es, p).rows, |p.rows|)
    decreases |es|
  {
    if |es| > 0 {
      var e := es[|es| - 1];
      var before := ProcessTeams(es[..|es| - 1], p);
      ProcessTeamsBlank(es[..|es| - 1], p);
      var q := ProcessTeam(e, before);
      if IndexOfTeam(before.rows, e.name).Some? {
        BlankFromKept(before.rows, q.rows, |p.rows|);
      } else {
        BlankFromExtended(before.rows, q.rows, |p.rows|);
      }
    }
  }

  /** Every appended row, from `start` to `cur`, is named after one of `es`. */
  predicate NamedAfter(es: seq<Entity>, start: Progress, cur: Progress)
    requires HasNames(cur.rows)
  {
    forall i :: |start.rows| <= i < |cur.rows| ==>
      exists k :: 0 <= k < |es| && cur.rows[i][NameColumn] == es[k].name
  }

  lemma {:induction false} ProcessTeamNamesStep(es: seq<Entity>, start: Progress, cur: Progress)
    requires |es| > 0 && WellFormed(cur.rows) && Strconv.InInt64(cur.lastId)
    requires NamedAfter(es[..|es| - 1], start, cur)
    ensures NamedAfter(es, start, ProcessTeam(es[|es| - 1], cur))
  {
    var prefix := es[..|es| - 1];
    var q := ProcessTeam(es[|es| - 1], cur);
    GrowsFromKeepsNames(cur.rows, q.rows);
    forall i | |start.rows| <= i < |q.rows|
      ensures exists k :: 0 <= k < |es| && q.rows[i][NameColumn] == es[k].name
    {
      if i < |cur.rows| {
        var k :| 0 <= k < |prefix| && cur.rows[i][NameColumn] == prefix[k].name;
        assert es[k] == prefix[k];
      } else {
        assert q.rows[i][NameColumn] == es[|es| - 1].name;
      }
    }
  }

  lemma {:induction false} ProcessTeamsNamesFromEntities(es: seq<Entity>, p: Progress)
    requires WellFormed(p.rows) && Strconv.InInt64(p.lastId)
    ensures NamedAfter(es, p, ProcessTeams(es, p))
    decreases |es|
  {
    if |es| > 0 {
      ProcessTeamsNamesFromEntities(es[..|es| - 1], p);
      ProcessTeamNamesStep(es, p, ProcessTeams(es[..|es| - 1], p));
    }
  }

  /** Every appended row, from `start` to `cur`, has a name no earlier row matches. */
  predicate AppendedUnmatched(start: Progress, cur: Progress)
    requires HasNames(cur.rows)
  {
    forall i, j :: |start.rows| <= i < |cur.rows| && 0 <= j < i ==>
      !TeamNamePredicate(cur.rows[i][NameColumn], cur.rows[j])
  }

  lemma {:induction false} ProcessTeamUnmatchedStep(e: Entity, start: Progress, cur: Progress)
    requires WellFormed(cur.rows) && Strconv.InInt64(cur.lastId) && AppendedUnmatched(start, cur)
    ensures AppendedUnmatched(start, ProcessTeam(e, cur))
  {
    var q := ProcessTeam(e, cur);
    GrowsFromKeepsNames(cur.rows, q.rows);
    forall i, j | |start.rows| <= i < |q.rows| && 0 <= j < i
      ensures !TeamNamePredicate(q.rows[i][NameColumn], q.rows[j])
    {
      if i < |cur.rows| {
        assert !TeamNamePredicate(cur.rows[i][NameColumn], cur.rows[j]);
      } else {
        assert !TeamNamePredicate(e.name, cur.rows[j]);
      }
    }
  }

  lemma {:induction false} ProcessTeamsAppendsOnlyUnmatched(es: seq<Entity>, p: Progress)
    requires WellFormed(p.rows) && Strconv.InInt64(p.lastId)
    ensures AppendedUnmatched(p, ProcessTeams(es, p))
    decreases |es|
  {
    if |es| > 0 {
      var before := ProcessTeams(es[..|es| - 1], p);
      ProcessTeamsAppendsOnlyUnmatched(es[..|es| - 1], p);
      ProcessTeamUnmatchedStep(es[|es| - 1], p, before);
    }
  }

  /** After the loop every entity's name matches some row. */
  lemma {:induction false} ProcessTeamsAllMatch(es: seq<Entity>, p: Progress)
    requires WellFormed(p.rows) && Strconv.InInt64(p.lastId)
    ensures forall k :: 0 <= k < |es| ==> IndexOfTeam(ProcessTeams(es, p).rows, es[k].name).Some?
    decreases |es|
  {
    if |es| > 0 {
      var prefix := es[..|es| - 1];
      var before := ProcessTeams(prefix, p);
      var q := ProcessTeam(es[|es| - 1], before);
      ProcessTeamsAllMatch(prefix, p);
      forall k | 0 <= k < |es| - 1
        ensures IndexOfTeam(q.rows, es[k].name).Some?
      {
        assert es[k] == prefix[k];
        IndexOfTeamStable(before.rows, q.rows, es[k].name);
      }
    }
  }

  /** When the k-th entity's edges are applied, the name of every entity before
      it matches a row, whether that row was in the input or was appended
      earlier in the same pass; so edges to earlier entities always resolve. */
  lemma {:induction false} EarlierEntitiesResolve(es: seq<Entity>, p: Progress, k: nat, j: nat)
    requires WellFormed(p.rows) && Strconv.InInt64(p.lastId)
    requires j < k <= |es|
    ensures IndexOfTeam(ProcessTeams(es[..k], p).rows, es[j].name).Some?
  {
    ProcessTeamsAllMatch(es[..k], p);
    assert es[..k][j] == es[j];
  }

  /** When every entity already matches a row, the loop appends nothing. */
  lemma {:induction false} ProcessTeamsNoNewRows(es: seq<Entity>, p: Progress)
    requires WellFormed(p.rows) && Strconv.InInt64(p.lastId)
    requires forall k :: 0 <= k < |es| ==> IndexOfTeam(p.rows, es[k].name).Some?
    ensures |ProcessTeams(es, p).rows| == |p.rows|
    decreases |es|
  {
    if |es| > 0 {
      var prefix := es[..|es| - 1];
      var before := ProcessTeams(prefix, p);
      assert forall k :: 0 <= k < |prefix| ==> prefix[k] == es[k];
      ProcessTeamsNoNewRows(prefix, p);
      IndexOfTeamStable(p.rows, before.rows, es[|es| - 1].name);
    }
  }

  /** The loop started at `largest` numbers its appended rows from `largest + 1`. */
  lemma {:induction false} ProcessTeamsNumbered(es: seq<Entity>, rows: Table, largest: int)
    requires WellFormed(rows) && 0 <= largest && largest + |es| <= Strconv.MaxInt64
    ensures NumberedFrom(ProcessTeams(es, Progress(rows, largest)).rows, |rows|, largest + 1)
  {
    ProcessTeamsIds(es, Progress(rows, largest));
    assert IdsAllocated(Progress(rows, largest), ProcessTeams(es, Progress(rows, largest)));
  }

  /** `appendNewTeams` runs the loop from the largest parsable id of its input. */
  lemma {:induction false} AppendNewTeamsStartsAtLargest(es: seq<Entity>, rows: Table, largest: int)
    requires WellFormed(rows) && largest == LargestTeamId(rows)
    ensures Strconv.InInt64(largest)
    ensures AppendNewTeams(es, rows) == ProcessTeams(es, Progress(rows, largest)).rows
  {
    LargestTeamIdInInt64(rows);
  }

  /** Without 64-bit overflow, the k-th row `appendNewTeams` appends (counting
      from 0) spells the id `largest + k + 1`, where `largest` is the largest
      parsable id of the input. */
  lemma {:induction false} AppendNewTeamsIds(es: seq<Entity>, rows: Table, largest: int)
    requires WellFormed(rows) && largest == LargestTeamId(rows)
    requires largest + |es| <= Strconv.MaxInt64
    ensures NumberedFrom(AppendNewTeams(es, rows), |rows|, largest + 1)
  {
    AppendNewTeamsStartsAtLargest(es, rows, largest);
    ProcessTeamsNumbered(es, rows, largest);
  }

  /** Every row `appendNewTeams` appends has five columns, Alias and
      SortingIndex empty, whatever its edges later wrote to ParentId. */
  lemma {:induction false} AppendedRowsBlank(es: seq<Entity>, rows: Table)
    requires WellFormed(rows)
    ensures var r := AppendNewTeams(es, rows);
            forall i :: |rows| <= i < |r| ==>
              |r[i]| == NewRowWidth && r[i][AliasColumn] == "" && r[i][SortingIndexColumn] == ""
  {
    var largest := LargestTeamId(rows);
    AppendNewTeamsStartsAtLargest(es, rows, largest);
    ProcessTeamsBlank(es, Progress(rows, largest));
  }

  /** Without 64-bit overflow, the appended ids are `largest + 1`, `largest + 2`, ...
      in the order the rows were appended. */
  lemma {:induction false} AllocatedIdsConsecutive(es: seq<Entity>, rows: Table)
    requires WellFormed(rows)
    requires LargestTeamId(rows) + |es| <= Strconv.MaxInt64
    ensures var r := AppendNewTeams(es, rows);
            forall i :: |rows| <= i < |r| ==>
              && Strconv.Atoi(r[i][IdColumn]).Some?
              && Strconv.Atoi(r[i][IdColumn]).value == LargestTeamId(rows) + 1 + (i - |rows|)
  {
    var r, largest := AppendNewTeams(es, rows), LargestTeamId(rows);
    var first := largest + 1;
    LargestTeamIdInInt64(rows);
    AppendNewTeamsIds(es, rows, largest);
    NumberedIdsParse(r, |rows|, first);
  }

  /** Without 64-bit overflow, every appended id is larger than every id of the
      input table that parses, and differs from every input Id column. */
  lemma {:induction false} AllocatedIdsAboveExisting(es: seq<Entity>, rows: Table)
    requires WellFormed(rows)
    requires LargestTeamId(rows) + |es| <= Strconv.MaxInt64
    ensures var r := AppendNewTeams(es, rows);
            forall i, j :: |rows| <= i < |r| && 0 <= j < |rows| ==>
              && Strconv.Atoi(r[i][IdColumn]).Some?
              && (Strconv.Atoi(rows[j][IdColumn]).Some? ==>
                    Strconv.Atoi(rows[j][IdColumn]).value < Strconv.Atoi(r[i][IdColumn]).value)
              && r[i][IdColumn] != rows[j][IdColumn]
  {
    var r, largest := AppendNewTeams(es, rows), LargestTeamId(rows);
    AppendNewTeamsIds(es, rows, largest);
    NumberedIdsFresh(rows, r, |rows|, largest);
  }

  /** Without 64-bit overflow, no two appended rows share an id. */
  lemma {:induction false} AllocatedIdsDistinct(es: seq<Entity>, rows: Table)
    requires WellFormed(rows)
    requires LargestTeamId(rows) + |es| <= Strconv.MaxInt64
    ensures var r := AppendNewTeams(es, rows);
            forall i, j :: |rows| <= i < j < |r| ==> r[i][IdColumn] != r[j][IdColumn]
  {
    var r, largest := AppendNewTeams(es, rows), LargestTeamId(rows);
    var first := largest + 1;
    LargestTeamIdInInt64(rows);
    AppendNewTeamsIds(es, rows, largest);
    NumberedIdsDistinct(r, |rows|, first);
  }

  /** A row is appended only for an entity name that no row before it matches,
      case-insensitively, and every appended row is named after an entity. */
  lemma {:induction false} AppendedOnlyWhenUnmatched(es: seq<Entity>, rows: Table)
    requires WellFormed(rows)
    ensures var r := AppendNewTeams(es, rows);
            forall i :: |rows| <= i < |r| ==>
              && (exists k :: 0 <= k < |es| && r[i][NameColumn] == es[k].name)
              && forall j :: 0 <= j < i ==> !TeamNamePredicate(r[i][NameColumn], r[j])
  {
    var p := Progress(rows, LargestTeamId(rows));
    ProcessTeamsNamesFromEntities(es, p);
    ProcessTeamsAppendsOnlyUnmatched(es, p);
  }

  /** After `appendNewTeams` every entity's name matches a row. */
  lemma {:induction false} EveryEntityMatchesAfterAppend(es: seq<Entity>, rows: Table)
    requires WellFormed(rows)
    ensures forall k :: 0 <= k < |es| ==> IndexOfTeam(AppendNewTeams(es, rows), es[k].name).Some?
  {
    ProcessTeamsAllMatch(es, Progress(rows, LargestTeamId(rows)));
  }

  /** Entities that all match existing rows append nothing. */
  lemma {:induction false} MatchedEntitiesAddNoRows(es: seq<Entity>, rows: Table)
    requires WellFormed(rows)
    requires forall k :: 0 <= k < |es| ==> IndexOfTeam(rows, es[k].name).Some?
    ensures |AppendNewTeams(es, rows)| == |rows|
  {
    ProcessTeamsNoNewRows(es, Progress(rows, LargestTeamId(rows)));
  }

  /** Running the pass again with the same entities on its own output appends
      no row: every entity now matches. Only ParentId columns may still change. */
  lemma {:induction false} RerunAppendsNothing(es: seq<Entity>, rows: Table)
    requires WellFormed(rows)
    ensures var once := AppendNewTeams(es, rows);
            var twice := AppendNewTeams(es, once);
            |twice| == |once| && GrowsFrom(once, twice)
  {
    var once := AppendNewTeams(es, rows);
    EveryEntityMatchesAfterAppend(es, rows);
    MatchedEntitiesAddNoRows(es, once);
  }
}

=== FILE: scenarios.dfy ===
/** Concrete runs of the reconciliation pass, small enough to follow by hand. */
module Scenarios {
  import opened Wrappers
  import Strconv
  import Fold
  import opened DevLake
  import opened GroupSync

  /** The header row DevLake's team CSV starts with. */
  const Header: Row := ["Id", "Name", "Alias", "ParentId", "SortingIndex"]

  /** Team "A" is a child of team "B", which Backstage lists after it. */
  const ChildFirst: seq<Entity> := [Entity("A", [Relation(ChildOf, "B")]), Entity("B", [])]

  /** The header row is an ordinary row to the name scan: a team called "name"
      matches it, so no row is appended for that team. */
  lemma HeaderMatchesTeamCalledName()
    ensures IndexOfTeam([Header], "name") == Some(0)
    ensures AppendNewTeams([Entity("name", [])], [Header]) == [Header]
  {
    assert Fold.LowerAll("Name") == Fold.LowerAll("name");
    assert TeamNamePredicate("name", Header);
    MatchedEntitiesAddNoRows([Entity("name", [])], [Header]);
  }

  lemma SmallIdsSpelled()
    ensures Strconv.Itoa(1) == "1" && Strconv.Itoa(2) == "2"
    ensures Strconv.Inc64(0) == 1 && Strconv.Inc64(1) == 2
  {
    assert Strconv.NatDigits(1) == "1";
    assert Strconv.NatDigits(2) == "2";
  }

  /** A single edge whose target name matches no row leaves the table alone. */
  lemma {:induction false} UnresolvedEdgeWritesNothing(rel: Relation, rows: Table, source: nat)
    requires WellFormed(rows) && source < |rows|
    requires IndexOfTeam(rows, rel.targetName).None?
    ensures CreateRelationships([rel], rows, source) == rows
  {
    assert [rel][..0] == [];
  }

  /** An entity no row matches, whose edges write nothing, only appends its row. */
  lemma UnmatchedAppendsOnly(e: Entity, p: Progress, row: Row)
    requires WellFormed(p.rows) && Strconv.InInt64(p.lastId)
    requires IndexOfTeam(p.rows, e.name).None?
    requires row == NewTeamRow(Strconv.Inc64(p.lastId), e.name)
    requires CreateRelationships(e.relations, p.rows + [row], |p.rows|) == p.rows + [row]
    ensures ProcessTeam(e, p) == Progress(p.rows + [row], Strconv.Inc64(p.lastId))
  {
  }

  lemma {:induction false} SingleEdge(rel: Relation, rows: Table, source: nat)
    requires WellFormed(rows) && source < |rows|
    ensures CreateRelationships([rel], rows, source) == ApplyRelation(rel, rows, source)
  {
    assert [rel][..0] == [];
  }

  /** An entity that matches row `index` only applies its edges from that row. */
  lemma MatchedAppliesEdges(e: Entity, p: Progress, index: nat)
    requires WellFormed(p.rows) && Strconv.InInt64(p.lastId)
    requires IndexOfTeam(p.rows, e.name) == Some(index)
    ensures ProcessTeam(e, p) == Progress(CreateRelationships(e.relations, p.rows, index), p.lastId)
  {
  }

  /** An entity no row matches, with a single edge that writes `w` once its new
      row is in place, appends that row and performs exactly that write. */
  lemma {:induction false} UnmatchedAppliesOneEdge(e: Entity, p: Progress, row: Row, w: ParentWrite, result: Table)
    requires WellFormed(p.rows) && Strconv.InInt64(p.lastId)
    requires IndexOfTeam(p.rows, e.name).None? && |e.relations| == 1
    requires row == NewTeamRow(Strconv.Inc64(p.lastId), e.name)
    requires EdgeWrite(e.relations[0], p.rows + [row], |p.rows|) == Some(w)
    requires w.row <= |p.rows| && result == SetParentId(p.rows + [row], w)
    ensures ProcessTeam(e, p) == Progress(result, Strconv.Inc64(p.lastId))
  {
    assert e.relations == [e.relations[0]];
    SingleEdge(e.relations[0], p.rows + [row], |p.rows|);
  }

  /** The DevLake table after the first pass over `ChildFirst` on a table holding only
      the header: "A" got id 1 and, since "B" had no row yet, no parent; then
      "B" got id 2. */
  const Once: Table := [Header, ["1", "A", "", "", ""], ["2", "B", "", "", ""]]

  /** `Once` with "A" linked to its parent "B". */
  const Linked: Table := [Header, ["1", "A", "", "2", ""], ["2", "B", "", "", ""]]

  lemma FirstPassStepA()
    ensures ProcessTeam(ChildFirst[0], Progress([Header], 0)) == Progress(Once[..2], 1)
  {
    SmallIdsSpelled();
    var one := Once[..2];
    assert !TeamNamePredicate("A", Header) && !TeamNamePredicate("B", Header);
    assert !TeamNamePredicate("B", one[1]);
    assert IndexOfTeam(one, "B").None?;
    assert IndexOfTeam([Header], "A").None?;
    assert NewTeamRow(1, "A") == one[1] && [Header] + [one[1]] == one;
    UnresolvedEdgeWritesNothing(Relation(ChildOf, "B"), one, 1);
    UnmatchedAppendsOnly(ChildFirst[0], Progress([Header], 0), one[1]);
  }

  lemma FirstPassStepB()
    ensures ProcessTeam(ChildFirst[1], Progress(Once[..2], 1)) == Progress(Once, 2)
  {
    SmallIdsSpelled();
    var one := Once[..2];
    assert !TeamNamePredicate("B", Header) && !TeamNamePredicate("B", one[1]);
    assert IndexOfTeam(one, "B").None?;
    assert NewTeamRow(2, "B") == Once[2] && one + [Once[2]] == Once;
    UnmatchedAppendsOnly(ChildFirst[1], Progress(one, 1), Once[2]);
  }

  lemma FirstPassOverChildFirst()
    ensures AppendNewTeams(ChildFirst, [Header]) == Once
  {
    assert Strconv.Atoi("Id").None?;
    assert LargestTeamId([Header]) == 0;
    FirstPassStepA();
    assert ChildFirst[..1] == [ChildFirst[0]];
    assert ProcessTeams(ChildFirst[..1], Progress([Header], 0)) == Progress(Once[..2], 1);
    FirstPassStepB();
  }

  lemma LargestIdOfOnce()
    ensures LargestTeamId(Once) == 2
  {
    assert Strconv.Atoi("Id").None? && Strconv.Atoi("1") == Some(1) && Strconv.Atoi("2") == Some(2);
    assert Once[..2] == [Header, Once[1]] && Once[..1] == [Header];
  }

  lemma SecondPassStepA()
    ensures ProcessTeam(ChildFirst[0], Progress(Once, 2)) == Progress(Linked, 2)
  {
    assert !TeamNamePredicate("A", Header) && TeamNamePredicate("A", Once[1]);
    assert IndexOfTeam(Once, "A") == Some(1);
    assert !TeamNamePredicate("B", Header) && !TeamNamePredicate("B", Once[1]) && TeamNamePredicate("B", Once[2]);
    assert IndexOfTeam(Once, "B") == Some(2);
    assert EdgeWrite(Relation(ChildOf, "B"), Once, 1) == Some(ParentWrite(1, "2"));
    assert Once[1][ParentIdColumn := "2"] == Linked[1];
    assert Once[1 := Linked[1]] == Linked;
    assert SetParentId(Once, ParentWrite(1, "2")) == Linked;
    SingleEdge(Relation(ChildOf, "B"), Once, 1);
    MatchedAppliesEdges(ChildFirst[0], Progress(Once, 2), 1);
  }

  lemma SecondPassStepB()
    ensures ProcessTeam(ChildFirst[1], Progress(Linked, 2)) == Progress(Linked, 2)
  {
    assert !TeamNamePredicate("B", Header) && !TeamNamePredicate("B", Linked[1]) && TeamNamePredicate("B", Linked[2]);
    assert IndexOfTeam(Linked, "B") == Some(2);
    MatchedAppliesEdges(ChildFirst[1], Progress(Linked, 2), 2);
  }

  /** The second pass over the first pass's output: both teams now have rows,
      so "A"'s edge resolves and "A" gets "B"'s id as its parent. */
  lemma SecondPassOverChildFirst()
    ensures AppendNewTeams(ChildFirst, Once) == Linked
  {
    LargestIdOfOnce();
    SecondPassStepA();
    assert ChildFirst[..1] == [ChildFirst[0]];
    assert ProcessTeams(ChildFirst[..1], Progress(Once, 2)) == Progress(Linked, 2);
    SecondPassStepB();
  }

  /** Running the pass twice is not the same as running it once: a `childOf`
      edge to a team Backstage lists later only takes effect on the rerun. */
  lemma RerunMayRelink()
    ensures AppendNewTeams(ChildFirst, AppendNewTeams(ChildFirst, [Header])) !=
              AppendNewTeams(ChildFirst, [Header])
  {
    FirstPassOverChildFirst();
    SecondPassOverChildFirst();
  }

  /** Go's `lastId += 1` on a 64-bit `int`: past the largest id the counter
      wraps round, and the new row gets the most negative id. */
  lemma CounterWrapsAtMaxInt64()
    ensures var q := ProcessTeam(Entity("X", []), Progress([Header], Strconv.MaxInt64));
            && q.lastId == Strconv.MinInt64
            && |q.rows| == 2
            && q.rows[1][IdColumn] == Strconv.Itoa(Strconv.MinInt64)
  {
    assert !TeamNamePredicate("X", Header);
    assert IndexOfTeam([Header], "X").None?;
  }

  /** A DevLake table with three teams; "Maple Leafs" already has parent 2. */
  const DevLakeTeams: Table := [
    Header,
    ["1", "Maple Leafs", "ML", "2", "0"],
    ["2", "Friendly Confines", "FC", "", "1"],
    ["3", "Blue Jays", "BJ", "", "2"]
  ]

  /** The Backstage groups: "Maple Leafs" is a child of "Friendly Confines"; "Raptors"
      is new. */
  const BackstageTeams: seq<Entity> := [
    Entity("Maple Leafs", [Relation(ChildOf, "Friendly Confines")]),
    Entity("Raptors", [])
  ]

  lemma DevLakeTeamsWellFormed()
    ensures WellFormed(DevLakeTeams) && |DevLakeTeams| == 4
    ensures DevLakeTeams[1][ParentIdColumn] == "2" && DevLakeTeams[2][IdColumn] == "2"
  {
  }

  lemma LargestIdOfDevLakeTeams()
    ensures LargestTeamId(DevLakeTeams) == 3
  {
    assert Strconv.Atoi("Id").None? && Strconv.Atoi("1") == Some(1);
    assert Strconv.Atoi("2") == Some(2) && Strconv.Atoi("3") == Some(3);
    assert DevLakeTeams[..3] == [Header, DevLakeTeams[1], DevLakeTeams[2]];
    assert DevLakeTeams[..3][..2] == [Header, DevLakeTeams[1]] && DevLakeTeams[..3][..2][..1] == [Header];
  }

  lemma DevLakeTeamsFindsMapleLeafs()
    ensures IndexOfTeam(DevLakeTeams, "Maple Leafs") == Some(1)
  {
    assert Fold.LowerAll("Maple Leafs") == Fold.LowerAll(DevLakeTeams[1][NameColumn]);
    assert !TeamNamePredicate("Maple Leafs", Header) && TeamNamePredicate("Maple Leafs", DevLakeTeams[1]);
  }

  lemma DevLakeTeamsFindsFriendlyConfines()
    ensures IndexOfTeam(DevLakeTeams, "Friendly Confines") == Some(2)
  {
    assert Fold.LowerAll("Friendly Confines") == Fold.LowerAll(DevLakeTeams[2][NameColumn]);
    assert !TeamNamePredicate("Friendly Confines", Header);
    assert !TeamNamePredicate("Friendly Confines", DevLakeTeams[1]);
    assert TeamNamePredicate("Friendly Confines", DevLakeTeams[2]);
  }

  /** A `childOf` edge whose target's id is already the source's parent
      rewrites the same value. */
  lemma {:induction false} ChildOfAlreadyLinked(rows: Table, source: nat, target: nat, name: string)
    requires WellFormed(rows) && source < |rows|
    requires IndexOfTeam(rows, name) == Some(target)
    requires rows[source][ParentIdColumn] == rows[target][IdColumn]
    ensures CreateRelationships([Relation(ChildOf, name)], rows, source) == rows
  {
    SingleEdge(Relation(ChildOf, name), rows, source);
    assert rows[source][ParentIdColumn := rows[target][IdColumn]] == rows[source];
  }

  /** The `childOf` edge of "Maple Leafs" writes the ParentId row 1 already has. */
  lemma DevLakeTeamsRelinkRewritesSameParent()
    ensures CreateRelationships(BackstageTeams[0].relations, DevLakeTeams, 1) == DevLakeTeams
  {
    DevLakeTeamsWellFormed();
    DevLakeTeamsFindsFriendlyConfines();
    ChildOfAlreadyLinked(DevLakeTeams, 1, 2, "Friendly Confines");
  }

  /** "Maple Leafs" matches row 1 and re-derives the parent it already has. */
  lemma DevLakeTeamsStepMapleLeafs()
    ensures ProcessTeam(BackstageTeams[0], Progress(DevLakeTeams, 3)) == Progress(DevLakeTeams, 3)
  {
    DevLakeTeamsFindsMapleLeafs();
    DevLakeTeamsRelinkRewritesSameParent();
    MatchedAppliesEdges(BackstageTeams[0], Progress(DevLakeTeams, 3), 1);
  }

  lemma DevLakeTeamsFirstEntity()
    ensures ProcessTeams(BackstageTeams[..1], Progress(DevLakeTeams, 3)) == Progress(DevLakeTeams, 3)
  {
    DevLakeTeamsWellFormed();
    DevLakeTeamsStepMapleLeafs();
    assert BackstageTeams[..1] == [BackstageTeams[0]];
    assert BackstageTeams[..1][..0] == [];
  }

  /** "Raptors" matches no row and is appended with id 4. */
  lemma DevLakeTeamsStepRaptors()
    ensures ProcessTeam(BackstageTeams[1], Progress(DevLakeTeams, 3)) ==
              Progress(DevLakeTeams + [["4", "Raptors", "", "", ""]], 4)
  {
    assert Strconv.NatDigits(4) == "4";
    assert !TeamNamePredicate("Raptors", Header) && !TeamNamePredicate("Raptors", DevLakeTeams[1]);
    assert !TeamNamePredicate("Raptors", DevLakeTeams[2]) && !TeamNamePredicate("Raptors", DevLakeTeams[3]);
    assert IndexOfTeam(DevLakeTeams, "Raptors").None?;
    assert NewTeamRow(4, "Raptors") == ["4", "Raptors", "", "", ""];
    UnmatchedAppendsOnly(BackstageTeams[1], Progress(DevLakeTeams, 3), ["4", "Raptors", "", "", ""]);
  }

  /** End to end: row 1 keeps ParentId "2" and one row `["4", "Raptors", "", "", ""]`
      is appended after the header and the three existing teams. */
  lemma EndToEndScenario()
    ensures AppendNewTeams(BackstageTeams, DevLakeTeams) == DevLakeTeams + [["4", "Raptors", "", "", ""]]
  {
    DevLakeTeamsWellFormed();
    LargestIdOfDevLakeTeams();
    DevLakeTeamsFirstEntity();
    DevLakeTeamsStepRaptors();
  }

  /** A DevLake table holding one team, and a Backstage group "Maple Leafs" it does not
      know yet. */
  const Confines: Table := [["1", "Friendly Confines", "FC", "", ""]]

  const ChildOfConfines: seq<Entity> := [Entity("Maple Leafs", [Relation(ChildOf, "Friendly Confines")])]
  const ParentOfConfines: seq<Entity> := [Entity("Maple Leafs", [Relation(ParentOf, "Friendly Confines")])]

  lemma LargestIdOfConfines()
    ensures WellFormed(Confines) && LargestTeamId(Confines) == 1
  {
    assert Strconv.Atoi("1") == Some(1) && Confines[..0] == [];
  }

  /** "Maple Leafs" has no row yet; its new row gets id 2. */
  lemma ConfinesNewRow()
    ensures WellFormed(Confines) && IndexOfTeam(Confines, "Maple Leafs").None?
    ensures NewTeamRow(Strconv.Inc64(1), "Maple Leafs") == ["2", "Maple Leafs", "", "", ""]
  {
    assert Strconv.NatDigits(2) == "2";
    assert !TeamNamePredicate("Maple Leafs", Confines[0]);
  }

  /** In the grown table, "Friendly Confines" is still row 0. */
  lemma ConfinesGrownFindsTarget(grown: Table)
    requires grown == Confines + [["2", "Maple Leafs", "", "", ""]]
    ensures IndexOfTeam(grown, "Friendly Confines") == Some(0)
  {
    assert Fold.LowerAll("Friendly Confines") == Fold.LowerAll(grown[0][NameColumn]);
    assert TeamNamePredicate("Friendly Confines", grown[0]);
  }

  lemma {:induction false} SingleEntityPass(e: Entity, rows: Table, largest: int)
    requires WellFormed(rows) && largest == LargestTeamId(rows)
    ensures AppendNewTeams([e], rows) == ProcessTeam(e, Progress(rows, largest)).rows
  {
    AppendNewTeamsStartsAtLargest([e], rows, largest);
    assert [e][..0] == [];
  }

  /** Grown by the row for "Maple Leafs", the table resolves both kinds of
      edge from row 1 to "Friendly Confines". */
  lemma ConfinesEdgeWrites(grown: Table)
    requires grown == Confines + [["2", "Maple Leafs", "", "", ""]]
    ensures WellFormed(grown)
    ensures EdgeWrite(Relation(ChildOf, "Friendly Confines"), grown, 1) == Some(ParentWrite(1, "1"))
    ensures EdgeWrite(Relation(ParentOf, "Friendly Confines"), grown, 1) == Some(ParentWrite(0, "2"))
  {
    ConfinesGrownFindsTarget(grown);
  }

  lemma ConfinesWritten(grown: Table)
    requires grown == Confines + [["2", "Maple Leafs", "", "", ""]]
    ensures WellFormed(grown)
    ensures SetParentId(grown, ParentWrite(1, "1")) == Confines + [["2", "Maple Leafs", "", "1", ""]]
    ensures SetParentId(grown, ParentWrite(0, "2")) ==
              [["1", "Friendly Confines", "FC", "2", ""], ["2", "Maple Leafs", "", "", ""]]
  {
    assert grown[1][ParentIdColumn := "1"] == ["2", "Maple Leafs", "", "1", ""];
    assert grown[0][ParentIdColumn := "2"] == ["1", "Friendly Confines", "FC", "2", ""];
  }

  lemma NewChildStep()
    ensures ProcessTeam(ChildOfConfines[0], Progress(Confines, 1)) ==
              Progress(Confines + [["2", "Maple Leafs", "", "1", ""]], 2)
  {
    ConfinesNewRow();
    var row := ["2", "Maple Leafs", "", "", ""];
    ConfinesEdgeWrites(Confines + [row]);
    ConfinesWritten(Confines + [row]);
    UnmatchedAppliesOneEdge(ChildOfConfines[0], Progress(Confines, 1), row, ParentWrite(1, "1"),
                            Confines + [["2", "Maple Leafs", "", "1", ""]]);
  }

  /** A new team that is a child of a known team is appended with the known
      team's id as its parent, and the known row is left alone. */
  lemma NewChildGetsParent()
    ensures AppendNewTeams(ChildOfConfines, Confines) ==
              Confines + [["2", "Maple Leafs", "", "1", ""]]
  {
    LargestIdOfConfines();
    SingleEntityPass(ChildOfConfines[0], Confines, 1);
    NewChildStep();
  }

  lemma NewParentStep()
    ensures ProcessTeam(ParentOfConfines[0], Progress(Confines, 1)) ==
              Progress([["1", "Friendly Confines", "FC", "2", ""], ["2", "Maple Leafs", "", "", ""]], 2)
  {
    ConfinesNewRow();
    var row := ["2", "Maple Leafs", "", "", ""];
    ConfinesEdgeWrites(Confines + [row]);
    ConfinesWritten(Confines + [row]);
    UnmatchedAppliesOneEdge(ParentOfConfines[0], Progress(Confines, 1), row, ParentWrite(0, "2"),
                            [["1", "Friendly Confines", "FC", "2", ""], ["2", "Maple Leafs", "", "", ""]]);
  }

  /** A new team that is a parent of a known team is appended without a parent,
      and the known team gets the new team's id as its parent. */
  lemma NewParentAdoptsChild()
    ensures AppendNewTeams(ParentOfConfines, Confines) ==
              [["1", "Friendly Confines", "FC", "2", ""], ["2", "Maple Leafs", "", "", ""]]
  {
    LargestIdOfConfines();
    SingleEntityPass(ParentOfConfines[0], Confines, 1);
    NewParentStep();
  }

  /** Team "A" is a child of team "B", which Backstage lists before it. */
  const ParentFirst: seq<Entity> := [Entity("B", []), Entity("A", [Relation(ChildOf, "B")])]

  /** The first pass over `ParentFirst` on a table holding only the header. */
  const ParentFirstOnce: Table := [Header, ["1", "B", "", "", ""], ["2", "A", "", "1", ""]]

  lemma ParentFirstStepB()
    ensures ProcessTeam(ParentFirst[0], Progress([Header], 0)) == Progress(ParentFirstOnce[..2], 1)
  {
    SmallIdsSpelled();
    var one := ParentFirstOnce[..2];
    assert !TeamNamePredicate("B", Header);
    assert IndexOfTeam([Header], "B").None?;
    assert NewTeamRow(1, "B") == one[1] && [Header] + [one[1]] == one;
    UnmatchedAppendsOnly(ParentFirst[0], Progress([Header], 0), one[1]);
  }

  /** "A"'s edge resolves to the row for "B" appended earlier in the same pass. */
  lemma ParentFirstStepA()
    ensures ProcessTeam(ParentFirst[1], Progress(ParentFirstOnce[..2], 1)) == Progress(ParentFirstOnce, 2)
  {
    SmallIdsSpelled();
    var one := ParentFirstOnce[..2];
    var row := ["2", "A", "", "", ""];
    var grown := one + [row];
    assert !TeamNamePredicate("A", Header) && !TeamNamePredicate("A", one[1]);
    assert IndexOfTeam(one, "A").None?;
    assert !TeamNamePredicate("B", Header) && TeamNamePredicate("B", grown[1]);
    assert IndexOfTeam(grown, "B") == Some(1);
    assert EdgeWrite(Relation(ChildOf, "B"), grown, 2) == Some(ParentWrite(2, "1"));
    assert row[ParentIdColumn := "1"] == ParentFirstOnce[2];
    assert grown[2 := ParentFirstOnce[2]] == ParentFirstOnce;
    UnmatchedAppliesOneEdge(ParentFirst[1], Progress(one, 1), row, ParentWrite(2, "1"), ParentFirstOnce);
  }

  /** Listed parent first, one pass links "A" to "B": targets resolve against
      the table as the pass grows it. */
  lemma ParentFirstLinksInOnePass()
    ensures AppendNewTeams(ParentFirst, [Header]) == ParentFirstOnce
  {
    assert Strconv.Atoi("Id").None?;
    assert LargestTeamId([Header]) == 0;
    ParentFirstStepB();
    assert ParentFirst[..1] == [ParentFirst[0]];
    assert ProcessTeams(ParentFirst[..1], Progress([Header], 0)) == Progress(ParentFirstOnce[..2], 1);
    ParentFirstStepA();
  }

  /** Like `ChildFirst`, but "B" carries the mirror `parentOf` edge back to "A". */
  const Mirrored: seq<Entity> := [Entity("A", [Relation(ChildOf, "B")]), Entity("B", [Relation(ParentOf, "A")])]

  /** "B" is appended, and its `parentOf` edge gives "A" the parent "2". */
  lemma MirroredStepB()
    ensures ProcessTeam(Mirrored[1], Progress(Once[..2], 1)) == Progress(Linked, 2)
  {
    SmallIdsSpelled();
    var one := Once[..2];
    assert !TeamNamePredicate("B", Header) && !TeamNamePredicate("B", one[1]);
    assert IndexOfTeam(one, "B").None?;
    assert NewTeamRow(2, "B") == Once[2] && one + [Once[2]] == Once;
    assert !TeamNamePredicate("A", Header) && TeamNamePredicate("A", Once[1]);
    assert IndexOfTeam(Once, "A") == Some(1);
    assert EdgeWrite(Relation(ParentOf, "A"), Once, 2) == Some(ParentWrite(1, "2"));
    assert Once[1][ParentIdColumn := "2"] == Linked[1];
    assert Once[1 := Linked[1]] == Linked;
    UnmatchedAppliesOneEdge(Mirrored[1], Progress(one, 1), Once[2], ParentWrite(1, "2"), Linked);
  }

  lemma MirroredFirstPass()
    ensures AppendNewTeams(Mirrored, [Header]) == Linked
  {
    assert Strconv.Atoi("Id").None?;
    assert LargestTeamId([Header]) == 0;
    assert Mirrored[0] == ChildFirst[0];
    FirstPassStepA();
    assert Mirrored[..1] == [Mirrored[0]];
    assert ProcessTeams(Mirrored[..1], Progress([Header], 0)) == Progress(Once[..2], 1);
    MirroredStepB();
  }

  lemma LargestIdOfLinked()
    ensures LargestTeamId(Linked) == 2
  {
    assert Strconv.Atoi("Id").None? && Strconv.Atoi("1") == Some(1) && Strconv.Atoi("2") == Some(2);
    assert Linked[..2] == [Header, Linked[1]] && Linked[..1] == [Header];
  }

  /** On the rerun "A" re-derives the parent it already has. */
  lemma MirroredRerunStepA()
    ensures ProcessTeam(Mirrored[0], Progress(Linked, 2)) == Progress(Linked, 2)
  {
    assert !TeamNamePredicate("A", Header) && TeamNamePredicate("A", Linked[1]);
    assert IndexOfTeam(Linked, "A") == Some(1);
    assert !TeamNamePredicate("B", Header) && !TeamNamePredicate("B", Linked[1]) && TeamNamePredicate("B", Linked[2]);
    assert IndexOfTeam(Linked, "B") == Some(2);
    ChildOfAlreadyLinked(Linked, 1, 2, "B");
    MatchedAppliesEdges(Mirrored[0], Progress(Linked, 2), 1);
  }

  /** On the rerun "B"'s `parentOf` edge writes the "2" that "A" already has. */
  lemma MirroredRerunStepB()
    ensures ProcessTeam(Mirrored[1], Progress(Linked, 2)) == Progress(Linked, 2)
  {
    assert !TeamNamePredicate("B", Header) && !TeamNamePredicate("B", Linked[1]) && TeamNamePredicate("B", Linked[2]);
    assert IndexOfTeam(Linked, "B") == Some(2);
    assert !TeamNamePredicate("A", Header) && TeamNamePredicate("A", Linked[1]);
    assert IndexOfTeam(Linked, "A") == Some(1);
    assert EdgeWrite(Relation(ParentOf, "A"), Linked, 2) == Some(ParentWrite(1, "2"));
    assert Linked[1][ParentIdColumn := "2"] == Linked[1];
    assert Linked[1 := Linked[1]] == Linked;
    SingleEdge(Relation(ParentOf, "A"), Linked, 2);
    MatchedAppliesEdges(Mirrored[1], Progress(Linked, 2), 2);
  }

  lemma MirroredRerun()
    ensures AppendNewTeams(Mirrored, Linked) == Linked
  {
    LargestIdOfLinked();
    MirroredRerunStepA();
    assert Mirrored[..1] == [Mirrored[0]];
    assert ProcessTeams(Mirrored[..1], Progress(Linked, 2)) == Progress(Linked, 2);
    MirroredRerunStepB();
  }

  /** With the mirror `parentOf` edge, the first run already links "A" to "B"
      even though "B" is listed later, and a second run changes nothing. */
  lemma MirrorEdgeLinksInFirstPass()
    ensures AppendNewTeams(Mirrored, [Header]) == Linked
    ensures AppendNewTeams(Mirrored, AppendNewTeams(Mirrored, [Header])) == AppendNewTeams(Mirrored, [Header])
  {
    MirroredFirstPass();
    MirroredRerun();
  }
}

=== FILE: strconv.dfy ===
/** The parts of Go's `strconv` package the reconciliation engine relies on:
    `Atoi` (decimal parse of a signed 64-bit `int`) and `Itoa` (its decimal
    rendering), plus the wrap-around of an increment of Go's `int` on a 64-bit
    target. */
module Strconv {
  import opened Wrappers

  const MinInt64: int := -0x8000_0000_0000_0000
  const MaxInt64: int := 0x7FFF_FFFF_FFFF_FFFF

  predicate InInt64(n: int) {
    MinInt64 <= n <= MaxInt64
  }

  /** Go's `n += 1` on a 64-bit `int`: the largest value wraps to the smallest. */
  function Inc64(n: int): (r: int)
    requires InInt64(n)
    ensures InInt64(r)
    ensures n < MaxInt64 ==> r == n + 1
    ensures n == MaxInt64 ==> r == MinInt64
  {
    if n == MaxInt64 then MinInt64 else n + 1
  }

  predicate IsDigit(c: char) {
    '0' <= c <= '9'
  }

  predicate AllDigits(s: string) {
    forall i :: 0 <= i < |s| ==> IsDigit(s[i])
  }

  function DigitValue(c: char): (d: nat)
    requires IsDigit(c)
    ensures d < 10
  {
    c as int - '0' as int
  }

  function DigitChar(d: nat): (c: char)
    requires d < 10
    ensures IsDigit(c) && DigitValue(c) == d
  {
    ('0' as int + d) as char
  }

  /** The number a run of decimal digits denotes, most significant first; 0 for none. */
  function DecimalValue(ds: string): nat
    requires AllDigits(ds)
    decreases |ds|
  {
    if |ds| == 0 then 0 else 10 * DecimalValue(ds[..|ds| - 1]) + DigitValue(ds[|ds| - 1])
  }

  /** `strconv.Atoi`: an optional `+` or `-`, then at least one decimal digit,
      and nothing else; the value must fit a 64-bit `int` (larger magnitudes are
      a range error). Leading zeros are accepted. Any failure is `None`. */
  function Atoi(s: string): (r: Option<int>)
    ensures r.Some? ==> InInt64(r.value)
    ensures r.Some? ==> |s| > 0 && forall i :: 1 <= i < |s| ==> IsDigit(s[i])
    ensures r.Some? ==> IsDigit(s[0]) || (|s| >= 2 && (s[0] == '+' || s[0] == '-'))
    ensures r.Some? && s[0] != '-' ==> r.value >= 0
    ensures |s| > 0 && AllDigits(s) ==>
              (r.Some? <==> DecimalValue(s) <= MaxInt64) && (r.Some? ==> r.value == DecimalValue(s))
    ensures |s| > 1 && s[0] == '+' && AllDigits(s[1..]) ==>
              (r.Some? <==> DecimalValue(s[1..]) <= MaxInt64) && (r.Some? ==> r.value == DecimalValue(s[1..]))
    ensures |s| > 1 && s[0] == '-' && AllDigits(s[1..]) ==>
              (r.Some? <==> DecimalValue(s[1..]) <= -MinInt64) && (r.Some? ==> r.value == -(DecimalValue(s[1..]) as int))
  {
    if |s| > 0 && (s[0] == '+' || s[0] == '-') then
      var digits := s[1..];
      if |digits| == 0 || !AllDigits(digits) then None
      else
        var v: int := if s[0] == '-' then -(DecimalValue(digits) as int) else DecimalValue(digits);
        if InInt64(v) then Some(v) else None
    else if |s| == 0 || !AllDigits(s) then None
    else if InInt64(DecimalValue(s)) then Some(DecimalValue(s))
    else None
  }

  /** The shortest decimal spelling of a natural number: no leading zero
      unless the number is 0 itself. */
  function NatDigits(n: nat): (ds: string)
    ensures |ds| > 0 && AllDigits(ds)
    ensures DecimalValue(ds) == n
    ensures |ds| > 1 ==> ds[0] != '0'
    decreases n
  {
    if n < 10 then [DigitChar(n)]
    else
      var prefix := NatDigits(n / 10);
      var ds := prefix + [DigitChar(n % 10)];
      assert ds[..|ds| - 1] == prefix;
      assert ds[0] == prefix[0];
      ds
  }

  /** `strconv.Itoa`: decimal rendering with a leading `-` for negatives. */
  function Itoa(n: int): (s: string)
    ensures |s| > 0
    ensures s[0] == '-' <==> n < 0
    ensures n >= 0 ==> AllDigits(s) && DecimalValue(s) == n && (|s| > 1 ==> s[0] != '0')
    ensures n < 0 ==> |s| > 1 && AllDigits(s[1..]) && DecimalValue(s[1..]) == -n && (|s| > 2 ==> s[1] != '0')
  {
    if n < 0 then "-" + NatDigits(-n) else NatDigits(n)
  }

  /** Parsing the rendering of any 64-bit value gives the value back. */
  lemma {:induction false} AtoiItoa(n: int)
    requires InInt64(n)
    ensures Atoi(Itoa(n)) == Some(n)
  {
    if n < 0 {
      assert Itoa(n)[1..] == NatDigits(-n);
    }
  }

  /** Distinct 64-bit values get distinct decimal spellings. */
  lemma {:induction false} ItoaInjective(m: int, n: int)
    requires InInt64(m) && InInt64(n)
    requires Itoa(m) == Itoa(n)
    ensures m == n
  {
    AtoiItoa(m);
    AtoiItoa(n);
  }
}

=== FILE: wrappers.dfy ===
/** Optional values, used for Go's `(value, err)` returns and
    for `slices.IndexFunc`'s "-1 when absent". */
module Wrappers {

  datatype Option<+T> = None | Some(value: T) {

    /** The wrapped value, or `default` when there is none. */
    function GetOr(default: T): T {
      match this
      case Some(v) => v
      case None => default
    }
  }
}
